=== FILE: README.md ===
# GeoMarkers in Dafny

A model of the logic of the GeoMarkers Android app. In the app, users sign up, drop map markers (warnings and points of interest), list and delete their own markers, and save other users' points of interest. The model has three parts:

- **Pure functions:** the password scorer, the strength label and progress value, and the backend error messages.
- **Screen state machines:** each screen is a record of flags with a pure `Next(state, event)` function. The screens are registration, marker creation, the marker lists with multi-select, and the marker details sheet.
- **The backend calls of `FirebaseDB`:** they work over an abstract document store, a map of markers plus a sequence of user documents. Each call returns a `Result` in place of its two callbacks.

Modules, one per file:

| module | file | models |
|---|---|---|
| `Wrappers` | wrappers.dfy | `Option` for nullable values (with the elvis operator), `Result` for callback pairs |
| `Text` | text.dfy | Kotlin `trim`/`isBlank` (with `Char.isWhitespace`), ASCII upper-casing, `equals(ignoreCase = true)` |
| `Models` | models.dfy | `GeoMarker`, `User` and its secondary constructor, `GeoType` |
| `Passwords` | passwords.dfy | `isValidPassword`, `isValidLoginPassword` |
| `Register` | register.dfy | the registration screen |
| `CreateMarker` | createmarker.dfy | the marker creation screen |
| `Lists` | lists.dfy | Kotlin list minus an element (first occurrence) and minus a list (every occurrence) |
| `Selection` | selection.dfy | the long-press selection shared by the three list screens, `updateUI`, the confirmation text |
| `Store` | store.dfy | `getUserByUid`, `addGeoMarkerToUser`, `removeGeoMarkerFromSaved`, `deleteGeoMarker` |
| `MarkerLists` | markerlists.dfy | the own-markers and saved-markers screens: open, long press, confirmed delete / remove |
| `MarkerDetails` | markerdetails.dfy | save eligibility, the type icon, the save button |

The data shapes follow the code that builds and reads them, not the class declarations in `Models.kt`:

- A marker carries `uid`, `createdOn` and a string `type`, as `CreateMarkerActivity.kt` builds it.
- `User.geoMarkers` is a list of marker ids, as `Firebase.kt` updates it.

`Models.kt` itself declares `userId`, no `createdOn`, a `GeoType` type and a list of markers.

Backend failures (network, permissions) are a parameter `Backend = Available | Fault(message)`. Dafny `real` stands for Kotlin `Double`, and a timestamp is an `int`. The platform's email regex is a function parameter `pattern`.

The store follows the backend's documented behaviour:

- An update of a missing document fails.
- A batch of deletes commits together.
- `arrayUnion` appends an element that is absent.
- `arrayRemove` drops every occurrence.
- Either one turns a null field into an array.

## Model

| member | source | states |
|---|---|---|
| Models.EmptyGeoMarker | app/src/main/java/com/figueroa/geofinalprgoject/models/Models.kt:14-21 | A marker built with no arguments has every field null |
| Models.EmptyUser | app/src/main/java/com/figueroa/geofinalprgoject/models/Models.kt:31-36 | A user built with no arguments has every field null |
| Models.UserOf | app/src/main/java/com/figueroa/geofinalprgoject/models/Models.kt:37-45 | The secondary constructor copies the uid and the email. It always sets the name to the email, because the name is still null when the constructor checks it. The saved list is exactly the list given |
| Models.GeoTypes | app/src/main/java/com/figueroa/geofinalprgoject/models/Models.kt:48-50 | The enum lists two distinct values, `INTEREST_POINT` and `WARNING` |
| Models.GeoTypesExhaustive | app/src/main/java/com/figueroa/geofinalprgoject/models/Models.kt:48-50 | Every `GeoType` is one of the two listed |
| Models.StoredTypesVersusEnumNames | app/src/main/java/com/figueroa/geofinalprgoject/user/markers/forms/CreateMarkerActivity.kt:165-166 | The stored type "WARNING" is the name of a `GeoType` constant, but "INTEREST POINT" is the name of none: it has a space where `INTEREST_POINT` has an underscore |
| Text.TrimIdempotent | app/src/main/java/com/figueroa/geofinalprgoject/auth/registration/RegisterActivity.kt:111 | Trimming twice equals trimming once, so the screen's extra `trim()` before the scorer changes nothing |
| Text.Utf16Length | app/src/main/java/com/figueroa/geofinalprgoject/utils/Utils.kt:38 | Kotlin's `length` counts UTF-16 code units: a text of n characters has between n and 2n units, and a non-empty text has at least one |
| Text.Utf16LengthBmp | app/src/main/java/com/figueroa/geofinalprgoject/utils/Utils.kt:54 | A text inside the Basic Multilingual Plane has as many units as characters |
| Text.Utf16LengthSupplementary | app/src/main/java/com/figueroa/geofinalprgoject/utils/Utils.kt:54 | A text of characters outside the Basic Multilingual Plane has two units per character |
| Passwords.IsValidPassword | app/src/main/java/com/figueroa/geofinalprgoject/utils/Utils.kt:49-91 | Valid iff the trimmed text has at least 6 UTF-16 code units. Strength lies in 0..5 (never the 6 the doc comment mentions). Valid implies strength >= 1, and strength 0 implies invalid |
| Passwords.IsValidLoginPassword | app/src/main/java/com/figueroa/geofinalprgoject/utils/Utils.kt:38 | Accepted iff the trimmed text has at least 6 UTF-16 code units, so at least 3 characters. For every text it agrees with the scorer's validity component |
| Passwords.Met | app/src/main/java/com/figueroa/geofinalprgoject/utils/Utils.kt:49-91 | The criteria listed are exactly those among the given ones that the password meets |
| Passwords.StrengthCountsCriteria | app/src/main/java/com/figueroa/geofinalprgoject/utils/Utils.kt:49-91 | The strength is the number of criteria met, out of: length, digit, capital, small letter, special character. A criterion is counted iff the password meets it |
| Passwords.NotSpecialCharacters | app/src/main/java/com/figueroa/geofinalprgoject/utils/Utils.kt:82-89 | Backslash, backtick and space earn no special point |
| Passwords.IsSpecial | app/src/main/java/com/figueroa/geofinalprgoject/utils/Utils.kt:82-84 | Every character of the special class is printable, non-space ASCII, and none is a digit or an ASCII letter |
| Passwords.MatchesAnywhereIsRegexMatch | app/src/main/java/com/figueroa/geofinalprgoject/utils/Utils.kt:59-89 | A class check holds iff `.*[class].*` matches the whole text: a prefix without line terminators, one character of the class, and a suffix without line terminators |
| Passwords.HoldsMeans | app/src/main/java/com/figueroa/geofinalprgoject/utils/Utils.kt:53-89 | A met length criterion means the trimmed text is non-blank and at least 3 characters long. A met class criterion means the text is non-empty and has no line terminator |
| Passwords.LineTerminatorBlocksClassPoints | app/src/main/java/com/figueroa/geofinalprgoject/utils/Utils.kt:59-89 | `.` does not match a line terminator, so a password containing one earns at most the length point |
| Passwords.OnlyAsciiEarnsClassPoints | app/src/main/java/com/figueroa/geofinalprgoject/utils/Utils.kt:59-89 | The classes are ASCII ranges: a password with no ASCII character earns at most the length point |
| Passwords.AllCriteriaMet | app/src/main/java/com/figueroa/geofinalprgoject/utils/Utils.kt:49-91 | A password that meets all five criteria scores (true, 5) |
| Passwords.ExampleStrongest | app/src/main/java/com/figueroa/geofinalprgoject/utils/Utils.kt:49-91 | "Abcdef1!" scores (true, 5) |
| Passwords.ExampleShort | app/src/main/java/com/figueroa/geofinalprgoject/utils/Utils.kt:49-91 | "abc" scores (false, 1) |
| Passwords.ExampleEmpty | app/src/main/java/com/figueroa/geofinalprgoject/utils/Utils.kt:49-91 | "" scores (false, 0) |
| Passwords.ExampleCapitals | app/src/main/java/com/figueroa/geofinalprgoject/utils/Utils.kt:49-91 | "ABCDEF" scores (true, 2) |
| Passwords.ExampleLeadingSpaces | app/src/main/java/com/figueroa/geofinalprgoject/utils/Utils.kt:54-89 | The length check sees the trimmed text and the class checks see the raw text, so "   a1" scores (false, 2) |
| Passwords.ExampleSurrogatePairs | app/src/main/java/com/figueroa/geofinalprgoject/utils/Utils.kt:49-91 | Three emoji are three characters but six UTF-16 units, so they score (true, 1) |
| Register.IsValidEmail | app/src/main/java/com/figueroa/geofinalprgoject/utils/Utils.kt:27-29 | The empty text is refused before the platform pattern is consulted. Any other text is valid iff the pattern accepts it |
| Register.BlankEmailRejected | app/src/main/java/com/figueroa/geofinalprgoject/auth/registration/RegisterActivity.kt:74 | A blank email field is never ready, whatever the pattern, because the check sees the trimmed text |
| Register.DecidePassText | app/src/main/java/com/figueroa/geofinalprgoject/auth/registration/RegisterActivity.kt:167-191 | The label is non-empty exactly for the strengths 0..5 |
| Register.PassTextsDistinct | app/src/main/java/com/figueroa/geofinalprgoject/auth/registration/RegisterActivity.kt:167-191 | The six labels are pairwise distinct |
| Register.Progress | app/src/main/java/com/figueroa/geofinalprgoject/auth/registration/RegisterActivity.kt:119 | `(100 * strength) / 5` with Kotlin's truncating division is exactly 20 * strength, and lies in 0..100 for 0..5 |
| Register.ProgressOfScore | app/src/main/java/com/figueroa/geofinalprgoject/auth/registration/RegisterActivity.kt:111-119 | For any password, the bar value lies in 0..100 and is a multiple of 20 |
| Register.ErrorMessage | app/src/main/java/com/figueroa/geofinalprgoject/auth/registration/RegisterActivity.kt:271-289 | Each of the three backend messages maps to its own text, in both directions. Any other message, null included, maps to the generic text |
| Register.InitialForm | app/src/main/java/com/figueroa/geofinalprgoject/auth/registration/RegisterActivity.kt:41-47 | Both ready flags, the submit button and loading start false |
| Register.CheckForm | app/src/main/java/com/figueroa/geofinalprgoject/auth/registration/RegisterActivity.kt:316-318 | The button becomes the conjunction of the two flags and nothing else changes |
| Register.ShowHideLoadScreen | app/src/main/java/com/figueroa/geofinalprgoject/auth/registration/RegisterActivity.kt:323-329 | The overlay becomes visible iff loading and nothing else changes |
| Register.EditEmail | app/src/main/java/com/figueroa/geofinalprgoject/auth/registration/RegisterActivity.kt:70-99 | The email flag is set iff the trimmed text passes the email check. The field shows an error exactly while the flag is false. Submit becomes the conjunction of the two flags |
| Register.EditPassword | app/src/main/java/com/figueroa/geofinalprgoject/auth/registration/RegisterActivity.kt:107-148 | The password flag is set iff the trimmed text has at least 6 UTF-16 code units. The field shows an error exactly while the flag is false. Submit becomes the conjunction of the flags. The indicator shows 20 per criterion the trimmed text meets, with the label for that count |
| Register.Lock | app/src/main/java/com/figueroa/geofinalprgoject/auth/registration/RegisterActivity.kt:238-243 | Submit blocks touch, disables the button and shows loading, and leaves the fields and flags as they were |
| Register.Unlock | app/src/main/java/com/figueroa/geofinalprgoject/auth/registration/RegisterActivity.kt:294-296 | Failure restores touch, enables the button and hides loading, and leaves the fields and flags as they were |
| Register.Next | app/src/main/java/com/figueroa/geofinalprgoject/auth/registration/RegisterActivity.kt:226-299 | Effects of each event: <br>- An edit sets its flag from the trimmed text and re-evaluates submit as the conjunction of the flags. <br>- A click on the enabled button, by touch or keyboard, disables the button and the touch screen, sets loading, and sends the trimmed email and password. <br>- Failure re-enables both, clears loading and toasts the mapped message |
| Register.InitialConsistent | app/src/main/java/com/figueroa/geofinalprgoject/auth/registration/RegisterActivity.kt:41-47 | The opening screen satisfies the screen invariant |
| Register.NextConsistent | app/src/main/java/com/figueroa/geofinalprgoject/auth/registration/RegisterActivity.kt:316-329 | Every event preserves the invariant. Each flag reflects its field. Submit is enabled iff both flags hold while no request is pending. The overlay is visible iff loading |
| Register.RunConsistent | app/src/main/java/com/figueroa/geofinalprgoject/auth/registration/RegisterActivity.kt:316-329 | Every screen reachable by any event sequence satisfies the invariant |
| Register.SubmittedCredentialsValid | app/src/main/java/com/figueroa/geofinalprgoject/auth/registration/RegisterActivity.kt:249-251 | A reachable screen only submits the trimmed field texts: an email that passes the email check and a password of at least 6 UTF-16 code units, so at least 3 characters |
| CreateMarker.StoredTypes | app/src/main/java/com/figueroa/geofinalprgoject/user/markers/forms/CreateMarkerActivity.kt:165-166 | "Warning" is stored as "WARNING" and "Interest point" as "INTEREST POINT" |
| CreateMarker.InitialForm | app/src/main/java/com/figueroa/geofinalprgoject/user/markers/forms/CreateMarkerActivity.kt:34-44 | The form opens with empty texts, no flag set, the text fields enabled, the button disabled, no loading screen and touch allowed |
| CreateMarker.CheckForm | app/src/main/java/com/figueroa/geofinalprgoject/user/markers/forms/CreateMarkerActivity.kt:207-209 | The button becomes the conjunction of the three flags and nothing else changes |
| CreateMarker.ShowHideLoadScreen | app/src/main/java/com/figueroa/geofinalprgoject/user/markers/forms/CreateMarkerActivity.kt:46-51 | The overlay becomes visible iff loading and nothing else changes |
| CreateMarker.Open | app/src/main/java/com/figueroa/geofinalprgoject/user/markers/forms/CreateMarkerActivity.kt:58-72 | The screen crashes iff a coordinate lies outside the ranges `GeoPoint` accepts (latitude in [-90, 90], longitude in [-180, 180]), whatever the user id. Otherwise it aborts iff the user id is missing or blank, or the location equals the sentinel (-32.3291159, -58.0608368). A missing coordinate reads as the sentinel's |
| CreateMarker.MarkerOf | app/src/main/java/com/figueroa/geofinalprgoject/user/markers/forms/CreateMarkerActivity.kt:165-175 | The marker has the screen's user as owner, the untrimmed title and description, the upper-cased type, the creation time and the location |
| CreateMarker.PickType | app/src/main/java/com/figueroa/geofinalprgoject/user/markers/forms/CreateMarkerActivity.kt:84 | Picking a type sets its flag and records the entry. Submit then needs only the name and description flags |
| CreateMarker.EditType | app/src/main/java/com/figueroa/geofinalprgoject/user/markers/forms/CreateMarkerActivity.kt:82-84 | Typing into the type field changes only its text: the flag is set only by a drop-down click, so it is not cleared |
| CreateMarker.EditName | app/src/main/java/com/figueroa/geofinalprgoject/user/markers/forms/CreateMarkerActivity.kt:88-92 | The name flag is set iff the text is not blank. Submit is re-evaluated as the conjunction of the three flags |
| CreateMarker.EditDescription | app/src/main/java/com/figueroa/geofinalprgoject/user/markers/forms/CreateMarkerActivity.kt:116-120 | The description flag is set iff the text is not blank. Submit is re-evaluated as the conjunction of the three flags |
| CreateMarker.Lock | app/src/main/java/com/figueroa/geofinalprgoject/user/markers/forms/CreateMarkerActivity.kt:156-163 | Submit blocks touch, disables name, description and button, and shows loading. The owner, location and type flag are kept |
| CreateMarker.Unlock | app/src/main/java/com/figueroa/geofinalprgoject/user/markers/forms/CreateMarkerActivity.kt:197-201 | Failure restores touch, enables name, description and button, and hides loading |
| CreateMarker.Next | app/src/main/java/com/figueroa/geofinalprgoject/user/markers/forms/CreateMarkerActivity.kt:148-209 | Effects of each event: <br>- Picking a type latches its flag and re-evaluates submit, in every state, since the type field is never disabled. <br>- Typing into the type field changes only its text. <br>- Name and description are ready iff not blank. <br>- Submit is the conjunction of the three flags. <br>- A click on the enabled button disables name, description and button, sets loading, and emits the marker. A click is not gated on touch, since a keyboard reaches the button while touch is blocked. <br>- Failure re-enables all three. <br>- The owner and location never change |
| CreateMarker.OpenedConsistent | app/src/main/java/com/figueroa/geofinalprgoject/user/markers/forms/CreateMarkerActivity.kt:58-75 | A screen that opened satisfies the invariant |
| CreateMarker.NextConsistent | app/src/main/java/com/figueroa/geofinalprgoject/user/markers/forms/CreateMarkerActivity.kt:84-120 | Every event preserves the invariant: <br>- the name and description flags reflect their fields; <br>- submit is the conjunction of the flags while no request is pending; <br>- all three flags hold while one is pending |
| CreateMarker.RunConsistent | app/src/main/java/com/figueroa/geofinalprgoject/user/markers/forms/CreateMarkerActivity.kt:207-209 | Every screen reachable by any event sequence satisfies the invariant. While a request is pending nothing is claimed of the button, because a pick re-runs `checkForm` |
| CreateMarker.PickWhileLoadingEnablesSubmit | app/src/main/java/com/figueroa/geofinalprgoject/user/markers/forms/CreateMarkerActivity.kt:34 | A drop-down pick during loading re-enables the submit button through `checkForm` while touch stays blocked. A click that then reaches the button (by keyboard) sends a second creation request, with the same title and description, while the first is outstanding |
| CreateMarker.SubmittedMarkerWellFormed | app/src/main/java/com/figueroa/geofinalprgoject/user/markers/forms/CreateMarkerActivity.kt:160-175 | A submitted marker has: <br>- the opening user as owner; <br>- a non-blank title and description; <br>- the upper-cased text of the type field, after some entry was picked; <br>- a location other than the sentinel |
| CreateMarker.PickedTypeIsStoredType | app/src/main/java/com/figueroa/geofinalprgoject/user/markers/forms/CreateMarkerActivity.kt:80-84 | If the type field is only ever set by drop-down clicks, the submitted type is "WARNING" or "INTEREST POINT" |
| CreateMarker.TypedTextOverridesPick | app/src/main/java/com/figueroa/geofinalprgoject/user/markers/forms/CreateMarkerActivity.kt:165-166 | The type is read from the field's text at submit: picking "Warning" and then typing "flood" submits the type "FLOOD" |
| CreateMarker.RunKeepsOwner | app/src/main/java/com/figueroa/geofinalprgoject/user/markers/forms/CreateMarkerActivity.kt:168-174 | No event sequence changes the form's user or location |
| Lists.RemoveFirst | app/src/main/java/com/figueroa/geofinalprgoject/user/markers/lists/GeoMarkerListActivity.kt:160 | List minus an element cuts out its first occurrence, and leaves a list without it unchanged |
| Lists.Prune | app/src/main/java/com/figueroa/geofinalprgoject/user/markers/lists/GeoMarkerListActivity.kt:82 | List minus a list keeps exactly the elements not in the second list |
| Lists.PruneNoDuplicates | app/src/main/java/com/figueroa/geofinalprgoject/user/markers/lists/GeoMarkerListActivity.kt:82 | Pruning keeps a duplicate-free list duplicate-free |
| Lists.PruneEverything | app/src/main/java/com/figueroa/geofinalprgoject/user/markers/lists/GeoMarkerListActivity.kt:80-82 | Pruning by a list that covers every element gives the empty list |
| Selection.Toggle | app/src/main/java/com/figueroa/geofinalprgoject/user/markers/lists/GeoMarkerListActivity.kt:157-163 | A long press drops a selected id (the list shrinks by one) and appends an unselected one. The identical handler is at SavedGeoMarkersActivity.kt:181-187 and markers/GeoMarkerListActivity.kt:133-139 |
| Selection.ToggleMembership | app/src/main/java/com/figueroa/geofinalprgoject/user/markers/lists/GeoMarkerListActivity.kt:159-162 | On a duplicate-free selection, a toggle flips the membership of its id, leaves every other id alone, and keeps the selection duplicate-free |
| Selection.ToggleTwice | app/src/main/java/com/figueroa/geofinalprgoject/user/markers/lists/GeoMarkerListActivity.kt:159-162 | Toggling an id twice restores the set of selected ids, and restores the list exactly when the id was not selected |
| Selection.ConfirmMessage | app/src/main/java/com/figueroa/geofinalprgoject/user/markers/lists/GeoMarkerListActivity.kt:75 | The confirmation says "these markers" iff more than one id is selected, else "this marker". The same text is at SavedGeoMarkersActivity.kt:97 and markers/GeoMarkerListActivity.kt:64 |
| Selection.UpdateUi | app/src/main/java/com/figueroa/geofinalprgoject/user/markers/lists/GeoMarkerListActivity.kt:200-213 | The empty text shows iff the item count is <= 0. The loading screen is hidden. The delete button shows iff the selection is non-empty. The same logic is at SavedGeoMarkersActivity.kt:220-233 and markers/GeoMarkerListActivity.kt:168-181 |
| Selection.SelectingShowsDelete | app/src/main/java/com/figueroa/geofinalprgoject/user/markers/lists/GeoMarkerListActivity.kt:157-163 | One long press on an empty selection shows delete with a singular text. A second distinct id makes the text plural. Pressing the same id again hides delete |
| MarkerLists.LongPress | app/src/main/java/com/figueroa/geofinalprgoject/user/markers/GeoMarkerListActivity.kt:202-208 | The card's checked state flips, the screen's toggle runs, and the event is reported consumed |
| MarkerLists.LongPressKeepsSync | app/src/main/java/com/figueroa/geofinalprgoject/user/markers/GeoMarkerListActivity.kt:202-208 | When the checked cards equal the selected ids, they still do after a long press |
| MarkerLists.LongPressesKeepSync | app/src/main/java/com/figueroa/geofinalprgoject/user/markers/GeoMarkerListActivity.kt:133-139 | The same holds after any sequence of long presses |
| MarkerLists.OpenOwn | app/src/main/java/com/figueroa/geofinalprgoject/user/markers/lists/GeoMarkerListActivity.kt:53-62 | A missing or blank user id finishes the screen. Nothing starts selected |
| MarkerLists.ConfirmDelete | app/src/main/java/com/figueroa/geofinalprgoject/user/markers/lists/GeoMarkerListActivity.kt:79-95 | After a successful delete: <br>- the reported ids leave the selection, which becomes empty; <br>- every card is unchecked; <br>- the deleted markers are gone from the store. <br>After a failure, only a toast appears. The same handler is at markers/GeoMarkerListActivity.kt:66-83 |
| MarkerLists.DeleteClearsSelection | app/src/main/java/com/figueroa/geofinalprgoject/user/markers/lists/GeoMarkerListActivity.kt:80-88 | Cards and selection stay in agreement, and after a successful delete the delete button is hidden |
| MarkerLists.OpenSaved | app/src/main/java/com/figueroa/geofinalprgoject/user/markers/lists/SavedGeoMarkersActivity.kt:54-88 | How the saved screen opens: <br>- A blank id or a failed lookup finishes the screen. <br>- A user whose saved list is null or empty gets the empty text and no loading screen. <br>- A user with a non-empty saved list has the document id recorded and that exact list listed, with the loading screen kept. <br>Nothing else records an id or lists anything |
| MarkerLists.ConfirmRemove | app/src/main/java/com/figueroa/geofinalprgoject/user/markers/lists/SavedGeoMarkersActivity.kt:101-120 | A successful remove empties the selection, leaves the marker collection untouched, and restarts the screen. A failure only toasts |
| MarkerLists.RemoveUnsaves | app/src/main/java/com/figueroa/geofinalprgoject/user/markers/lists/SavedGeoMarkersActivity.kt:102-113 | After a successful remove, no selected id is in the user document's saved list, and the markers still exist |
| Store.UsersWithUid | app/src/main/java/com/figueroa/geofinalprgoject/db/Firebase.kt:34 | The query returns exactly the user documents whose `userId` equals the uid |
| Store.GetUserByUid | app/src/main/java/com/figueroa/geofinalprgoject/db/Firebase.kt:29-47 | Outcomes of the lookup: <br>- A backend failure passes its message through. <br>- "User not found" iff no document matches. <br>- "Multiple users found" iff more than one matches. <br>- Success iff the backend is available and exactly one document matches, and the result is that document |
| Store.ArrayUnion | app/src/main/java/com/figueroa/geofinalprgoject/db/Firebase.kt:66 | The result holds the old ids plus the new one, keeps the old ones as a prefix, and keeps a duplicate-free list duplicate-free |
| Store.ArrayRemove | app/src/main/java/com/figueroa/geofinalprgoject/db/Firebase.kt:90 | The result holds exactly the old ids that are not being removed |
| Store.AddGeoMarkerToUser | app/src/main/java/com/figueroa/geofinalprgoject/db/Firebase.kt:57-70 | Needs a matching user, since the first result is read unguarded. Fails iff the backend fails. Otherwise only the first matching document changes, and its saved list gains the id |
| Store.RemoveGeoMarkerFromSaved | app/src/main/java/com/figueroa/geofinalprgoject/db/Firebase.kt:80-96 | Failures and success: <br>- "Empty ID list" iff the list is empty. <br>- Otherwise a backend failure passes its message through. <br>- Not found iff no document has the id. <br>- It succeeds iff the list is non-empty, the backend is available and a document has the id. <br>- On success only that document's saved list changes, losing exactly the given ids. Markers are untouched and the input ids are reported |
| Store.CommitBatch | app/src/main/java/com/figueroa/geofinalprgoject/db/Firebase.kt:116-123 | The batch removes exactly the given ids from the marker collection and keeps every other marker as it was |
| Store.DeleteGeoMarker | app/src/main/java/com/figueroa/geofinalprgoject/db/Firebase.kt:105-129 | "Empty ID list" iff the list is empty. Otherwise it fails iff the backend fails. On success exactly the given ids are deleted, the users are untouched, and the input ids are reported |
| Store.SingleDeleteIsBatch | app/src/main/java/com/figueroa/geofinalprgoject/db/Firebase.kt:110-124 | The single-delete branch and the batch branch agree on one id |
| Store.DeleteKeepsSavedReferences | app/src/main/java/com/figueroa/geofinalprgoject/db/Firebase.kt:105-129 | Deleting markers does not touch saved lists, so a saved id can name a marker that is gone |
| Store.CallsKeepWellFormed | app/src/main/java/com/figueroa/geofinalprgoject/db/Firebase.kt:57-129 | Every call keeps user document ids unique |
| MarkerDetails.ShouldShowSave | app/src/main/java/com/figueroa/geofinalprgoject/user/markers/details/MarkerDetailsBottomSheet.kt:62-63 | Saving is offered iff both ids are non-null, the marker's owner is not the viewer, and the type equals "interest point" ignoring case. Both directions are stated, so a shown button implies each condition. Only a 14-character type can qualify |
| MarkerDetails.SaveNeedsForeignInterestPoint | app/src/main/java/com/figueroa/geofinalprgoject/user/markers/details/MarkerDetailsBottomSheet.kt:62-63 | "WARNING" markers, untyped markers and the viewer's own markers never show the save button |
| MarkerDetails.MarkerOnlyNeverSaves | app/src/main/java/com/figueroa/geofinalprgoject/user/markers/details/MarkerDetailsBottomSheet.kt:20-24 | A sheet built from a marker alone, with both ids defaulting to null, never shows the save button |
| MarkerDetails.CreatedMarkersSaveability | app/src/main/java/com/figueroa/geofinalprgoject/user/markers/details/MarkerDetailsBottomSheet.kt:62-63 | For a marker the creation screen built: <br>- as a point of interest, it is offered to every other viewer ("INTEREST POINT" equals "interest point" ignoring case); <br>- as a warning, it is offered to nobody; <br>- it is never offered to its owner |
| MarkerDetails.StoredInterestPointIsSaveable | app/src/main/java/com/figueroa/geofinalprgoject/user/markers/details/MarkerDetailsBottomSheet.kt:63 | The stored type "INTEREST POINT" equals "interest point" under Kotlin's ignore-case comparison |
| MarkerDetails.IconOf | app/src/main/java/com/figueroa/geofinalprgoject/user/markers/details/MarkerDetailsBottomSheet.kt:53-55 | The warning icon shows iff the type is exactly "WARNING", case-sensitively |
| MarkerDetails.IconOfCreatedMarkers | app/src/main/java/com/figueroa/geofinalprgoject/user/markers/details/MarkerDetailsBottomSheet.kt:53-55 | Created warnings get the warning icon and created points of interest the interest icon. "Warning" spelled any other way gets the interest icon |
| MarkerDetails.InitialButton | app/src/main/java/com/figueroa/geofinalprgoject/user/markers/details/MarkerDetailsBottomSheet.kt:62-66 | The button is visible iff saving is offered, and starts enabled without progress |
| MarkerDetails.Click | app/src/main/java/com/figueroa/geofinalprgoject/user/markers/details/MarkerDetailsBottomSheet.kt:67-98 | A click shows progress and "Saving". Success hides the progress, shows "Saved" and disables the button. Failure only toasts the message, or "Error" when it is null, and leaves "Saving" and the progress showing |
| MarkerDetails.SaveAddsToSavedList | app/src/main/java/com/figueroa/geofinalprgoject/user/markers/details/MarkerDetailsBottomSheet.kt:75-91 | After a successful save, the viewer's user document lists the marker, and a second click does nothing |

## Left out

- Proximity and staleness filtering of markers on the map: the camera-move hook is an unimplemented TODO (app/src/main/java/com/figueroa/geofinalprgoject/maps/MapsActivity.kt:321-323), so there is nothing to model.
- `calculateDistance` and `getNearbyMarkers`: they are floating-point geometry delegated to the platform and to the backend's ordering of geo points.
- `isValidEmail`'s regex (`Patterns.EMAIL_ADDRESS`): it belongs to the platform. It is the parameter `pattern`, and only the non-empty check is modelled.
- Text.UpperAscii: only ASCII letters are upper-cased. The drop-down entries are ASCII; text typed into the type field is upper-cased exactly only when it is ASCII.
- Text.CharEqualsIgnoreCase: Unicode case mapping is modelled only for ASCII letters and the four letters whose case partner is ASCII (U+0130, U+0131, U+017F, U+212A). Other letters are compared as they are.
- Initial widget states that come from layout files, which this model does not cover: the register and create-marker submit buttons start disabled, the saved screen's loading screen starts visible, and the save button's initial label. The save button also starts hidden, which MarkerDetails.InitialButton relies on when it ties visibility to MarkerDetails.ShouldShowSave.
- Colours, toast durations, keyboard hiding, `decideBarColor` and helper texts.
- `createGeoMarker`, the two list queries and the `FirebaseAuth` wrapper: they are thin backend calls. Ordering by `createdOn` happens in the backend.
- Listeners, adapters and threading: each backend call completes in one step, and its answer is an event or a `Result`.
- `LoginActivity.kt`: an unfinished stub with an empty `checkForm`.
- Double coordinates: they are reals, and the comparison with the sentinel is exact equality, as the source's `GeoPoint` equality is.
- Register.Next: the email field error keeps the source's text exactly, including the missing space between "something" and "like".
- MarkerLists.ConfirmRemove: requires the user document id to be recorded, because the source reads a late-initialised field there. Cards, and so a selection, exist only once the lookup has recorded the id (SavedGeoMarkersActivity.kt:72-74), so a screen that reaches the delete button by long presses meets this.
- MarkerLists.ConfirmDelete: "every card is unchecked" is stated about the model's id-keyed checked set. In the source, the checked state lives on recycled card views: it is flipped at markers/GeoMarkerListActivity.kt:204, never reset when a view is rebound to another marker, and `clearAllChecks` unchecks only the cards attached to the list. Cards scrolled out of view can keep a stale check.
- MarkerLists.DeleteClearsSelection: the agreement of cards and selection holds for the id-keyed abstraction only, for the recycled-view reason given for ConfirmDelete.
- MarkerLists.LongPressKeepsSync: same abstraction. A recycled card bound to another marker carries the old marker's check, so in the source a long press can flip it the wrong way.
- MarkerLists.LongPressesKeepSync: same abstraction as LongPressKeepsSync.
- Register.Next: while a request is pending the window only blocks touch, and the fields stay enabled. A hardware keyboard can still edit a focused field; its listener would run `checkForm` and could re-enable submit during loading, and a later failure enables submit whatever the flags. The model drops edits while touch is blocked.
- Register.RunConsistent: the clauses "loading implies submit disabled" and, after a failure, "submit iff both flags" rest on Register.Next dropping keyboard edits while touch is blocked.
- Register.SubmittedCredentialsValid: relies on Register.RunConsistent, so it also assumes no keyboard edits while touch is blocked.
- CreateMarker.Open: a NaN coordinate also makes `GeoPoint` throw. Reals have no NaN, so the model has no such input.
- CreateMarker.Next: tracks one outstanding request. After a second submission during loading (CreateMarker.PickWhileLoadingEnablesSubmit), the first response ends loading and a later response is dropped; in the source each request's callback runs, so a late success would still toast and finish.
- CreateMarker.EditType: the layout is not part of this model. If it makes the type field read-only, no `TypeEdited` event occurs and CreateMarker.PickedTypeIsStoredType covers every screen.
- Store.AddGeoMarkerToUser: requires a matching user document unless the query fails, because the source reads the first result unguarded.
- Store.RemoveGeoMarkerFromSaved: the not-found failure carries no text, where the backend's exception carries its own message. MarkerLists.ConfirmRemove toasts a fixed text on any failure, so no screen shows it.
- Store: the query and the update inside one call fail or succeed together, through a single `Backend` parameter.

=== FILE: createmarker.dfy ===
/** The marker-creation screen: a type drop-down and two text fields whose
    "ready" flags gate the submit button, an abort on a missing user or
    location, and a submit / failure cycle that disables and re-enables the
    inputs. */
module CreateMarker {
  import opened Wrappers
  import opened Text
  import opened Models

  /** The two entries of the type drop-down, in display order. */
  datatype TypeItem = WarningItem | InterestPointItem {
    function Text(): string {
      match this
      case WarningItem => "Warning"
      case InterestPointItem => "Interest point"
    }
  }

  /** Whether a text is one of the drop-down entries. */
  predicate IsItemText(t: string) {
    t == "Warning" || t == "Interest point"
  }

  /** The type string stored for each entry: the entry upper-cased. */
  lemma StoredTypes()
    ensures UpperAscii(WarningItem.Text()) == "WARNING"
    ensures UpperAscii(InterestPointItem.Text()) == "INTEREST POINT"
  {
    assert UpperAscii("Warning") == "WARNING";
    assert UpperAscii("Interest point") == "INTEREST POINT";
  }

  /** The default location used when the launching screen passes none: a
      point in the middle of the ocean that doubles as a "no location" mark. */
  const SentinelLat: real := -32.3291159
  const SentinelLng: real := -58.0608368
  const Sentinel: LatLng := LatLng(SentinelLat, SentinelLng)

  /** What the creation screen holds. `touchable` is false while the window
      carries `FLAG_NOT_TOUCHABLE`. */
  datatype Form = Form(
    userId: string,
    location: LatLng,
    typeText: string,
    nameText: string,
    descriptionText: string,
    isTypeReady: bool,
    isNameReady: bool,
    isDescriptionReady: bool,
    nameEnabled: bool,
    descriptionEnabled: bool,
    submitEnabled: bool,
    isLoading: bool,
    loadingVisible: bool,
    touchable: bool)

  /** The form as laid out: empty fields, no flag set, the text fields
      enabled, the button disabled, no loading screen, touch allowed. */
  function InitialForm(userId: string, location: LatLng): (f: Form)
    ensures f.userId == userId && f.location == location
    ensures f.typeText == "" && f.nameText == "" && f.descriptionText == ""
    ensures !f.isTypeReady && !f.isNameReady && !f.isDescriptionReady
    ensures f.nameEnabled && f.descriptionEnabled && !f.submitEnabled
    ensures !f.isLoading && !f.loadingVisible && f.touchable
  {
    Form(userId, location, "", "", "", false, false, false, true, true, false, false, false, true)
  }

  /** Whether `GeoPoint(lat, lng)` accepts the coordinates: a latitude in
      [-90, 90] and a longitude in [-180, 180]. */
  predicate GeoPointAccepts(lat: real, lng: real) {
    -90.0 <= lat <= 90.0 && -180.0 <= lng <= 180.0
  }

  /** Opening the screen either crashes (the `GeoPoint` constructor throws),
      aborts (toast and finish) or shows the form. */
  datatype Opening = Crashed | Aborted | Opened(form: Form)

  /** `onCreate`, given the launching screen's extras. A missing user id
      reads as "", a missing coordinate as the sentinel's. The point is built
      before the user id is checked, so bad coordinates crash the screen even
      when the user id is blank. */
  function Open(userIdExtra: Option<string>, latExtra: Option<real>, lngExtra: Option<real>): (r: Opening)
    ensures r.Crashed? <==> !GeoPointAccepts(latExtra.GetOr(SentinelLat), lngExtra.GetOr(SentinelLng))
    ensures r.Aborted? <==>
      && GeoPointAccepts(latExtra.GetOr(SentinelLat), lngExtra.GetOr(SentinelLng))
      && (IsBlank(userIdExtra.GetOr("")) || (latExtra.GetOr(SentinelLat) == SentinelLat && lngExtra.GetOr(SentinelLng) == SentinelLng))
    ensures userIdExtra.None? ==> !r.Opened?
    ensures latExtra.None? && lngExtra.None? ==> r.Aborted?
    ensures r.Opened? ==>
      && !IsBlank(r.form.userId) && r.form.location != Sentinel
      && r.form.location == LatLng(latExtra.GetOr(SentinelLat), lngExtra.GetOr(SentinelLng))
      && GeoPointAccepts(r.form.location.lat, r.form.location.lng)
      && !r.form.submitEnabled && !r.form.isTypeReady && !r.form.isLoading
  {
    var userId := userIdExtra.GetOr("");
    var location := LatLng(latExtra.GetOr(SentinelLat), lngExtra.GetOr(SentinelLng));
    if !GeoPointAccepts(location.lat, location.lng) then Crashed
    else if IsBlank(userId) || location == Sentinel then Aborted
    else Opened(InitialForm(userId, location))
  }

  /** `TypeEdited` is text typed into the type field itself: the field is an
      editable `AutoCompleteTextView` that is never disabled, and only a click
      on a drop-down entry runs its listener. */
  datatype Event =
    | TypePicked(item: TypeItem)
    | TypeEdited(text: string)
    | NameEdited(text: string)
    | DescriptionEdited(text: string)
    | SubmitClicked(now: int)
    | CreateSucceeded
    | CreateFailed

  datatype Effect =
    | NoEffect
    | CreateGeoMarker(marker: GeoMarker)
    | Toast(text: string)
    | ToastAndFinish(text: string)

  datatype Step = Step(form: Form, effect: Effect)

  /** `checkForm`, run whenever a ready flag is assigned: the button follows
      the three flags and nothing else changes. */
  function CheckForm(f: Form): (g: Form)
    ensures g.submitEnabled <==> f.isTypeReady && f.isNameReady && f.isDescriptionReady
    ensures g.(submitEnabled := f.submitEnabled) == f
  {
    f.(submitEnabled := f.isTypeReady && f.isNameReady && f.isDescriptionReady)
  }

  /** `showHideLoadScreen`, run whenever `isLoading` is assigned: the overlay
      follows the flag and nothing else changes. */
  function ShowHideLoadScreen(f: Form): (g: Form)
    ensures g.loadingVisible == f.isLoading
    ensures g.(loadingVisible := f.loadingVisible) == f
  {
    f.(loadingVisible := f.isLoading)
  }

  /** The marker the submit handler builds: owner, untrimmed texts, the
      upper-cased type, the creation time and the screen's location. */
  function MarkerOf(f: Form, now: int): (m: GeoMarker)
    ensures m.id.None?
    ensures m.uid == Some(f.userId) && m.latLng == Some(f.location) && m.createdOn == Some(now)
    ensures m.title == Some(f.nameText) && m.description == Some(f.descriptionText)
    ensures m.markerType.Some? && |m.markerType.value| == |f.typeText|
    ensures f.typeText == WarningItem.Text() ==> m.markerType == Some("WARNING")
    ensures f.typeText == InterestPointItem.Text() ==> m.markerType == Some("INTEREST POINT")
  {
    StoredTypes();
    GeoMarker(None, Some(f.userId), Some(f.nameText), Some(f.descriptionText),
              Some(f.location), Some(UpperAscii(f.typeText)), Some(now))
  }

  /** A type picked from the drop-down: its flag latches. */
  function PickType(f: Form, item: TypeItem): (g: Form)
    ensures g.userId == f.userId && g.location == f.location
    ensures g.isTypeReady && g.typeText == item.Text()
    ensures g.submitEnabled <==> f.isNameReady && f.isDescriptionReady
  {
    CheckForm(f.(typeText := item.Text(), isTypeReady := true))
  }

  /** Text typed into the type field: the text changes, its flag does not,
      and `checkForm` does not run. */
  function EditType(f: Form, text: string): (g: Form)
    ensures g.typeText == text
    ensures g.(typeText := f.typeText) == f
  {
    f.(typeText := text)
  }

  /** A name edit: ready iff the text is not blank. */
  function EditName(f: Form, text: string): (g: Form)
    ensures g.userId == f.userId && g.location == f.location && g.isTypeReady == f.isTypeReady
    ensures g.isNameReady <==> !IsBlank(text)
    ensures g.submitEnabled <==> f.isTypeReady && g.isNameReady && f.isDescriptionReady
  {
    CheckForm(f.(nameText := text, isNameReady := !IsBlank(text)))
  }

  /** A description edit: ready iff the text is not blank. */
  function EditDescription(f: Form, text: string): (g: Form)
    ensures g.userId == f.userId && g.location == f.location && g.isTypeReady == f.isTypeReady
    ensures g.isDescriptionReady <==> !IsBlank(text)
    ensures g.submitEnabled <==> f.isTypeReady && f.isNameReady && g.isDescriptionReady
  {
    CheckForm(f.(descriptionText := text, isDescriptionReady := !IsBlank(text)))
  }

  /** The submit click: touch blocked, inputs disabled, loading shown. */
  function Lock(f: Form): (g: Form)
    ensures g.userId == f.userId && g.location == f.location && g.isTypeReady == f.isTypeReady
    ensures g.isLoading && g.loadingVisible && !g.touchable
    ensures !g.nameEnabled && !g.descriptionEnabled && !g.submitEnabled
  {
    ShowHideLoadScreen(f.(touchable := false, nameEnabled := false, descriptionEnabled := false,
                          submitEnabled := false, isLoading := true))
  }

  /** The failure handler: touch restored, inputs enabled, loading hidden. */
  function Unlock(f: Form): (g: Form)
    ensures g.userId == f.userId && g.location == f.location && g.isTypeReady == f.isTypeReady
    ensures !g.isLoading && !g.loadingVisible && g.touchable
    ensures g.nameEnabled && g.descriptionEnabled && g.submitEnabled
  {
    ShowHideLoadScreen(f.(touchable := true, nameEnabled := true, descriptionEnabled := true,
                          submitEnabled := true, isLoading := false))
  }

  const CreatedText := "Successfully created marker!"
  const CreateFailedText := "Oops! Something went wrong while trying to create the marker..."

  /** One event. A click reaches the button whenever it is enabled (by
      touch, or by keyboard while touch is blocked), the name and description
      fields only while the screen is touchable and they are enabled, and a
      backend response only while a request is outstanding. The type field
      is never disabled, so typed text and a drop-down pick reach it at any
      time; a pick then runs `checkForm` even during loading. */
  function Next(f: Form, e: Event): (r: Step)
    ensures r.form.userId == f.userId && r.form.location == f.location
    ensures f.isTypeReady ==> r.form.isTypeReady
    ensures e.TypePicked? ==>
      && r.form.isTypeReady && r.form.typeText == e.item.Text()
      && (r.form.submitEnabled <==> f.isNameReady && f.isDescriptionReady)
    ensures e.TypeEdited? ==>
      && r.form.typeText == e.text && r.form.isTypeReady == f.isTypeReady
      && r.form.submitEnabled == f.submitEnabled && r.effect.NoEffect?
    ensures e.NameEdited? && f.touchable && f.nameEnabled ==>
      && (r.form.isNameReady <==> !IsBlank(e.text))
      && (r.form.submitEnabled <==> f.isTypeReady && r.form.isNameReady && f.isDescriptionReady)
    ensures e.DescriptionEdited? && f.touchable && f.descriptionEnabled ==>
      && (r.form.isDescriptionReady <==> !IsBlank(e.text))
      && (r.form.submitEnabled <==> f.isTypeReady && f.isNameReady && r.form.isDescriptionReady)
    ensures e.SubmitClicked? && f.submitEnabled ==>
      && r.form.isLoading && r.form.loadingVisible && !r.form.touchable
      && !r.form.nameEnabled && !r.form.descriptionEnabled && !r.form.submitEnabled
      && r.effect == CreateGeoMarker(MarkerOf(f, e.now))
    ensures e.CreateFailed? && f.isLoading ==>
      && !r.form.isLoading && !r.form.loadingVisible && r.form.touchable
      && r.form.nameEnabled && r.form.descriptionEnabled && r.form.submitEnabled
      && r.effect == Toast(CreateFailedText)
    ensures e.CreateSucceeded? && f.isLoading ==> r.effect == ToastAndFinish(CreatedText)
  {
    match e
    case TypePicked(item) =>
      Step(PickType(f, item), NoEffect)
    case TypeEdited(text) =>
      Step(EditType(f, text), NoEffect)
    case NameEdited(text) =>
      if !(f.touchable && f.nameEnabled) then Step(f, NoEffect) else Step(EditName(f, text), NoEffect)
    case DescriptionEdited(text) =>
      if !(f.touchable && f.descriptionEnabled) then Step(f, NoEffect) else Step(EditDescription(f, text), NoEffect)
    case SubmitClicked(now) =>
      if !f.submitEnabled then Step(f, NoEffect)
      else Step(Lock(f), CreateGeoMarker(MarkerOf(f, now)))
    case CreateSucceeded =>
      if !f.isLoading then Step(f, NoEffect) else Step(f, ToastAndFinish(CreatedText))
    case CreateFailed =>
      if !f.isLoading then Step(f, NoEffect) else Step(Unlock(f), Toast(CreateFailedText))
  }

  /** What holds of every screen state the events can reach. The type flag
      latches on the first pick and says nothing about the field's text.
      While a request is outstanding all three flags hold; the button starts
      disabled then, but a pick re-enables it, so nothing is claimed of it. */
  ghost predicate Consistent(f: Form) {
    && !IsBlank(f.userId) && f.location != Sentinel
    && (f.isNameReady <==> !IsBlank(f.nameText))
    && (f.isDescriptionReady <==> !IsBlank(f.descriptionText))
    && (f.loadingVisible <==> f.isLoading)
    && (f.touchable <==> !f.isLoading)
    && (f.nameEnabled <==> !f.isLoading)
    && (f.descriptionEnabled <==> !f.isLoading)
    && (!f.isLoading ==> (f.submitEnabled <==> f.isTypeReady && f.isNameReady && f.isDescriptionReady))
    && (f.isLoading ==> f.isTypeReady && f.isNameReady && f.isDescriptionReady)
  }

  /** A screen that opened is consistent. */
  lemma OpenedConsistent(userIdExtra: Option<string>, latExtra: Option<real>, lngExtra: Option<real>)
    ensures var r := Open(userIdExtra, latExtra, lngExtra);
      r.Opened? ==> Consistent(r.form)
  {
  }

  /** Every event keeps the screen consistent. */
  lemma NextConsistent(f: Form, e: Event)
    requires Consistent(f)
    ensures Consistent(Next(f, e).form)
  {
  }

  /** A pick during loading enables the button again while touch stays
      blocked. A click that reaches the button without touch (keyboard or
      accessibility) then sends a second creation request for the same
      form, although the first one is still outstanding. */
  lemma PickWhileLoadingEnablesSubmit(f: Form, item: TypeItem, now: int)
    requires Consistent(f) && f.isLoading
    ensures var g := Next(f, TypePicked(item)).form;
      g.submitEnabled && g.isLoading && !g.touchable
    ensures var g := Next(f, TypePicked(item)).form;
      Next(g, SubmitClicked(now)).effect == CreateGeoMarker(MarkerOf(g, now))
    ensures var g := Next(f, TypePicked(item)).form;
      MarkerOf(g, now).title == Some(f.nameText) && MarkerOf(g, now).description == Some(f.descriptionText)
  {
  }

  /** The screen after a sequence of events. */
  function Run(f: Form, events: seq<Event>): Form
    decreases |events|
  {
    if events == [] then f else Run(Next(f, events[0]).form, events[1..])
  }

  lemma {:induction false} RunConsistent(f: Form, events: seq<Event>)
    requires Consistent(f)
    ensures Consistent(Run(f, events))
    decreases |events|
  {
    if events != [] {
      NextConsistent(f, events[0]);
      RunConsistent(Next(f, events[0]).form, events[1..]);
    }
  }

  /** Any marker a reachable screen submits has an owner, a non-blank title
      and description, a real location, and a type taken from the type
      field after some entry was picked. */
  lemma SubmittedMarkerWellFormed(f0: Form, events: seq<Event>, now: int)
    requires Consistent(f0)
    ensures var f := Run(f0, events);
      var r := Next(f, SubmitClicked(now));
      r.effect.CreateGeoMarker? ==>
        && f.isTypeReady
        && r.effect.marker.uid == Some(f0.userId) && !IsBlank(f0.userId)
        && r.effect.marker.title.Some? && !IsBlank(r.effect.marker.title.value)
        && r.effect.marker.description.Some? && !IsBlank(r.effect.marker.description.value)
        && r.effect.marker.markerType == Some(UpperAscii(f.typeText))
        && r.effect.marker.latLng == Some(f0.location) && f0.location != Sentinel
  {
    RunConsistent(f0, events);
    RunKeepsOwner(f0, events);
  }

  /** No text was typed into the type field. */
  predicate NoTyping(events: seq<Event>) {
    forall i :: 0 <= i < |events| ==> !events[i].TypeEdited?
  }

  /** While only drop-down picks touch the type field, a set flag means the
      field holds one of the entries. */
  ghost predicate PickedFromList(f: Form) {
    f.isTypeReady ==> IsItemText(f.typeText)
  }

  /** Every event but typing keeps a set flag matched to an entry. */
  lemma NextKeepsPickedFromList(f: Form, e: Event)
    requires PickedFromList(f) && !e.TypeEdited?
    ensures PickedFromList(Next(f, e).form)
  {
  }

  lemma {:induction false} RunKeepsPickedFromList(f: Form, events: seq<Event>)
    requires PickedFromList(f) && NoTyping(events)
    ensures PickedFromList(Run(f, events))
    decreases |events|
  {
    if events != [] {
      assert NoTyping(events[1..]) by {
        forall i | 0 <= i < |events[1..]|
          ensures !events[1..][i].TypeEdited?
        {
          assert events[1..][i] == events[i + 1];
        }
      }
      NextKeepsPickedFromList(f, events[0]);
      RunKeepsPickedFromList(Next(f, events[0]).form, events[1..]);
    }
  }

  /** When the type comes from the drop-down only, the stored type is one of
      the two upper-cased entries. */
  lemma PickedTypeIsStoredType(f0: Form, events: seq<Event>, now: int)
    requires Consistent(f0) && PickedFromList(f0) && NoTyping(events)
    ensures var r := Next(Run(f0, events), SubmitClicked(now));
      r.effect.CreateGeoMarker? ==> r.effect.marker.markerType in {Some("WARNING"), Some("INTEREST POINT")}
  {
    RunConsistent(f0, events);
    RunKeepsPickedFromList(f0, events);
  }

  /** Text typed after a pick is what gets stored: pick "Warning", type
      "flood", fill in the other fields and submit, and the marker's type is
      "FLOOD", which is neither stored type. */
  lemma TypedTextOverridesPick(userId: string, location: LatLng, now: int)
    ensures var f := Run(InitialForm(userId, location),
                         [TypePicked(WarningItem), TypeEdited("flood"), NameEdited("n"), DescriptionEdited("d")]);
      Next(f, SubmitClicked(now)).effect.CreateGeoMarker?
      && Next(f, SubmitClicked(now)).effect.marker.markerType == Some("FLOOD")
  {
    var f0 := InitialForm(userId, location);
    var f1 := Next(f0, TypePicked(WarningItem)).form;
    var f2 := Next(f1, TypeEdited("flood")).form;
    var f3 := Next(f2, NameEdited("n")).form;
    var f4 := Next(f3, DescriptionEdited("d")).form;
    assert !IsBlank("n") by { assert !IsWhitespace("n"[0]); }
    assert !IsBlank("d") by { assert !IsWhitespace("d"[0]); }
    assert f4.submitEnabled && f4.touchable && f4.typeText == "flood";
    var events := [TypePicked(WarningItem), TypeEdited("flood"), NameEdited("n"), DescriptionEdited("d")];
    assert Run(f0, events) == f4 by {
      assert events[1..] == [TypeEdited("flood"), NameEdited("n"), DescriptionEdited("d")];
      assert events[1..][1..] == [NameEdited("n"), DescriptionEdited("d")];
      assert events[1..][1..][1..] == [DescriptionEdited("d")];
      assert Run(f4, []) == f4;
    }
    assert UpperAscii("flood") == "FLOOD";
  }

  /** Events never change whose form it is or where the marker goes. */
  lemma {:induction false} RunKeepsOwner(f: Form, events: seq<Event>)
    ensures Run(f, events).userId == f.userId && Run(f, events).location == f.location
    decreases |events|
  {
    if events != [] {
      RunKeepsOwner(Next(f, events[0]).form, events[1..]);
    }
  }
}

=== FILE: lists.dfy ===
/** The Kotlin list operators the screens and the backend calls rely on:
    `list - element`, `list - iterable`, and duplicate-freeness. */
module Lists {

  /** No id occurs twice. */
  predicate NoDuplicates(s: seq<string>) {
    forall i, j :: 0 <= i < j < |s| ==> s[i] != s[j]
  }

  /** The position of the first occurrence of `x`. */
  function IndexOf(s: seq<string>, x: string): (k: nat)
    requires x in s
    ensures k < |s| && s[k] == x
    ensures forall i :: 0 <= i < k ==> s[i] != x
  {
    if s[0] == x then 0 else 1 + IndexOf(s[1..], x)
  }

  /** Kotlin's `list - element`: the list without the first occurrence of
      the element, or the list itself when it does not occur. */
  function RemoveFirst(s: seq<string>, x: string): (r: seq<string>)
    ensures x in s ==> r == s[..IndexOf(s, x)] + s[IndexOf(s, x) + 1..]
    ensures x !in s ==> r == s
  {
    if s == [] then []
    else if s[0] == x then s[1..]
    else if x in s then
      var k := IndexOf(s[1..], x);
      PrependCut(s, k);
      [s[0]] + RemoveFirst(s[1..], x)
    else [s[0]] + RemoveFirst(s[1..], x)
  }

  /** Putting the head back in front of a cut tail is the cut one position
      further on. */
  lemma PrependCut(s: seq<string>, k: nat)
    requires k + 1 < |s|
    ensures [s[0]] + (s[1..][..k] + s[1..][k + 1..]) == s[..k + 1] + s[k + 2..]
  {
    assert [s[0]] + s[1..][..k] == s[..k + 1];
    assert s[1..][k + 1..] == s[k + 2..];
  }

  /** Cutting one position out of a duplicate-free list removes exactly
      that element and keeps the list duplicate-free. */
  lemma CutMembership(s: seq<string>, k: nat)
    requires NoDuplicates(s) && k < |s|
    ensures s[k] !in s[..k] + s[k + 1..]
    ensures forall y :: y != s[k] ==> (y in s[..k] + s[k + 1..] <==> y in s)
    ensures NoDuplicates(s[..k] + s[k + 1..])
  {
    var r := s[..k] + s[k + 1..];
    assert forall i :: 0 <= i < |r| ==> r[i] == s[if i < k then i else i + 1];
    forall y | y != s[k] && y in s
      ensures y in r
    {
      var j :| 0 <= j < |s| && s[j] == y;
      assert r[if j < k then j else j - 1] == y;
    }
  }

  /** Kotlin's `list - iterable`: the list without any occurrence of any of
      the given elements, in the original order. */
  function Prune(s: seq<string>, removed: seq<string>): (r: seq<string>)
    ensures forall y :: y in r <==> y in s && y !in removed
    ensures |r| <= |s|
  {
    if s == [] then []
    else (if s[0] in removed then [] else [s[0]]) + Prune(s[1..], removed)
  }

  /** Pruning keeps a selection free of duplicates. */
  lemma {:induction false} PruneNoDuplicates(s: seq<string>, removed: seq<string>)
    requires NoDuplicates(s)
    ensures NoDuplicates(Prune(s, removed))
  {
    if s != [] {
      PruneNoDuplicates(s[1..], removed);
    }
  }

  /** Removing every selected id leaves nothing selected. */
  lemma PruneEverything(s: seq<string>, removed: seq<string>)
    requires forall y :: y in s ==> y in removed
    ensures Prune(s, removed) == []
  {
    if Prune(s, removed) != [] {
      assert Prune(s, removed)[0] in Prune(s, removed);
    }
  }
}

=== FILE: markerdetails.dfy ===
/** The marker details sheet: which icon it shows, whether it offers to save
    the marker to the viewer's saved list, and the save button's states. */
module MarkerDetails {
  import opened Wrappers
  import opened Text
  import opened Models
  import Store
  import CreateMarker

  /** The type the sheet compares against, ignoring case. */
  const SaveableType := "interest point"

  /** The save button is offered to a viewer who is known, on a marker whose
      document id is known, that the viewer does not own, and whose type is
      "interest point" in any letter case. */
  function ShouldShowSave(marker: GeoMarker, markerId: Option<string>, userId: Option<string>): (r: bool)
    ensures r ==> userId.Some? && markerId.Some? && marker.uid != userId
    ensures r ==> marker.markerType.Some? && EqualsIgnoreCase(marker.markerType.value, SaveableType)
    ensures r ==> |marker.markerType.value| == |SaveableType|
    ensures (&& userId.Some? && markerId.Some? && marker.uid != userId
             && marker.markerType.Some? && EqualsIgnoreCase(marker.markerType.value, SaveableType)) ==> r
  {
    && userId.Some? && markerId.Some?
    && marker.uid != userId
    && marker.markerType.Some? && EqualsIgnoreCase(marker.markerType.value, SaveableType)
  }

  /** A type that differs in length from "interest point", such as "WARNING",
      is never saveable, and neither is a marker the viewer owns or one
      without a type. */
  lemma SaveNeedsForeignInterestPoint(marker: GeoMarker, markerId: Option<string>, userId: Option<string>)
    ensures marker.markerType == Some("WARNING") ==> !ShouldShowSave(marker, markerId, userId)
    ensures marker.markerType.None? ==> !ShouldShowSave(marker, markerId, userId)
    ensures userId.Some? && marker.uid == userId ==> !ShouldShowSave(marker, markerId, userId)
  {
  }

  /** The sheet opened from a list card gets only the marker, so both ids are
      null and the button never appears. */
  lemma MarkerOnlyNeverSaves(marker: GeoMarker)
    ensures !ShouldShowSave(marker, None, None)
  {
  }

  /** A marker created as an interest point is offered to every other signed
      in viewer once its id is known; one created as a warning never is. */
  lemma CreatedMarkersSaveability(f: CreateMarker.Form, now: int, markerId: string, viewer: string)
    requires viewer != f.userId
    ensures f.typeText == CreateMarker.TypeItem.InterestPointItem.Text() ==>
      ShouldShowSave(CreateMarker.MarkerOf(f, now), Some(markerId), Some(viewer))
    ensures f.typeText == CreateMarker.TypeItem.WarningItem.Text() ==>
      !ShouldShowSave(CreateMarker.MarkerOf(f, now), Some(markerId), Some(viewer))
    ensures !ShouldShowSave(CreateMarker.MarkerOf(f, now), Some(markerId), Some(f.userId))
  {
    CreateMarker.StoredTypes();
    StoredInterestPointIsSaveable();
  }

  /** The stored type "INTEREST POINT" equals "interest point" ignoring case. */
  lemma StoredInterestPointIsSaveable()
    ensures EqualsIgnoreCase("INTEREST POINT", SaveableType)
  {
    var t := "INTEREST POINT";
    assert forall i :: 0 <= i < |t| ==> CharEqualsIgnoreCase(t[i], SaveableType[i]);
  }

  datatype Icon = WarningIcon | InterestIcon

  /** The type image: the warning icon for exactly the stored type "WARNING",
      case-sensitively; every other type, a missing one included, gets the
      interest icon. */
  function IconOf(markerType: Option<string>): (r: Icon)
    ensures r == WarningIcon <==> markerType == Some("WARNING")
  {
    if markerType == Some("WARNING") then WarningIcon else InterestIcon
  }

  /** The icon agrees with the drop-down entry the marker was created from,
      while a type in other letters, such as "Warning", gets the interest icon. */
  lemma IconOfCreatedMarkers(f: CreateMarker.Form, now: int)
    ensures f.typeText == CreateMarker.TypeItem.WarningItem.Text() ==> IconOf(CreateMarker.MarkerOf(f, now).markerType) == WarningIcon
    ensures f.typeText == CreateMarker.TypeItem.InterestPointItem.Text() ==> IconOf(CreateMarker.MarkerOf(f, now).markerType) == InterestIcon
    ensures IconOf(Some("Warning")) == InterestIcon
  {
  }

  /** The save button. `text` is None while it shows its initial label. */
  datatype SaveButton = SaveButton(visible: bool, text: Option<string>, progressVisible: bool, enabled: bool)

  function InitialButton(marker: GeoMarker, markerId: Option<string>, userId: Option<string>): (b: SaveButton)
    ensures b.visible <==> ShouldShowSave(marker, markerId, userId)
    ensures b.enabled && !b.progressVisible && b.text.None?
  {
    SaveButton(ShouldShowSave(marker, markerId, userId), None, false, true)
  }

  const SavingText := "Saving"
  const SavedText := "Saved"
  const SavedToast := "Marker saved!"
  const FallbackError := "Error"

  /** The button after a click and the backend's answer, the store after it,
      and the toast shown. */
  datatype Saved = Saved(button: SaveButton, db: Store.Db, toast: Option<string>)

  /** A click on a visible, enabled button: the progress appears and the
      label reads "Saving" while `addGeoMarkerToUser` runs; on success the
      progress hides, the label reads "Saved" and the button is disabled; on
      failure only a toast with the error message (or "Error") appears.
      The backend call reads the first matching user unguarded, so the
      viewer must have a user document unless the query fails. */
  function Click(b: SaveButton, db: Store.Db, userId: string, markerId: string, backend: Store.Backend): (r: Saved)
    requires backend.Fault? || |Store.UsersWithUid(db.users, userId)| > 0
    ensures !(b.visible && b.enabled) ==> r == Saved(b, db, None)
    ensures b.visible && b.enabled && backend.Fault? ==>
      && r.button == b.(text := Some(SavingText), progressVisible := true)
      && r.db == db
      && r.toast == Some(backend.message.GetOr(FallbackError))
    ensures b.visible && b.enabled && backend.Available? ==>
      && r.button == b.(text := Some(SavedText), progressVisible := false, enabled := false)
      && r.toast == Some(SavedToast)
  {
    if !(b.visible && b.enabled) then Saved(b, db, None)
    else
      var saving := b.(text := Some(SavingText), progressVisible := true);
      match Store.AddGeoMarkerToUser(db, userId, markerId, backend)
      case Success(db') => Saved(saving.(text := Some(SavedText), progressVisible := false, enabled := false), db', Some(SavedToast))
      case Failure(e) => Saved(saving, db, Some(e.Message().GetOr(FallbackError)))
  }

  /** After a successful save the marker id is in the saved list of the
      viewer's user document, and a second click does nothing. */
  lemma SaveAddsToSavedList(b: SaveButton, db: Store.Db, userId: string, markerId: string, i: nat)
    requires |Store.UsersWithUid(db.users, userId)| > 0
    requires b.visible && b.enabled
    requires i < |db.users| && db.users[i] == Store.UsersWithUid(db.users, userId)[0]
    ensures var r := Click(b, db, userId, markerId, Store.Available);
      && i < |r.db.users|
      && r.db.users[i].user.geoMarkers.Some?
      && markerId in r.db.users[i].user.geoMarkers.value
      && Click(r.button, r.db, userId, markerId, Store.Available) == Saved(r.button, r.db, None)
  {
  }
}

=== FILE: markerlists.dfy ===
/** The three marker list screens: the user's own markers (two copies of the
    same activity) and the user's saved markers. Each keeps a selection of
    marker ids and the checked state of the cards; a confirmed delete or
    remove goes to the backend and prunes the selection on success. */
module MarkerLists {
  import opened Wrappers
  import opened Text
  import opened Models
  import opened Lists
  import opened Selection
  import Store

  /** What the view holder's long-press listener does: it flips the card's
      checked state, runs the screen's toggle, and consumes the event. */
  datatype LongPressed = LongPressed(checked: set<string>, selected: seq<string>, consumed: bool)

  function LongPress(checked: set<string>, selected: seq<string>, id: string): (r: LongPressed)
    ensures r.consumed
    ensures id in r.checked <==> id !in checked
    ensures forall other :: other != id ==> (other in r.checked <==> other in checked)
    ensures r.selected == Toggle(selected, id)
  {
    var flipped := if id in checked then checked - {id} else checked + {id};
    LongPressed(flipped, Toggle(selected, id), true)
  }

  /** The checked cards are exactly the selected ids. */
  predicate InSync(checked: set<string>, selected: seq<string>) {
    NoDuplicates(selected) && checked == set id | id in selected
  }

  /** Long presses keep the cards and the selection in agreement. */
  lemma LongPressKeepsSync(checked: set<string>, selected: seq<string>, id: string)
    requires InSync(checked, selected)
    ensures var r := LongPress(checked, selected, id); InSync(r.checked, r.selected)
  {
    ToggleMembership(selected, id);
  }

  function LongPresses(checked: set<string>, selected: seq<string>, ids: seq<string>): (r: LongPressed)
    decreases |ids|
  {
    if ids == [] then LongPressed(checked, selected, true)
    else
      var r := LongPress(checked, selected, ids[0]);
      LongPresses(r.checked, r.selected, ids[1..])
  }

  lemma {:induction false} LongPressesKeepSync(checked: set<string>, selected: seq<string>, ids: seq<string>)
    requires InSync(checked, selected)
    ensures var r := LongPresses(checked, selected, ids); InSync(r.checked, r.selected)
    decreases |ids|
  {
    if ids != [] {
      LongPressKeepsSync(checked, selected, ids[0]);
      var r := LongPress(checked, selected, ids[0]);
      LongPressesKeepSync(r.checked, r.selected, ids[1..]);
    }
  }

  const DeletedText := "Successfully deleted"
  const DeleteFailedText := "Could not delete marker(s)"

  /** The own-markers screen: the user it belongs to, whether it is
      finishing, the selection and the checked cards. */
  datatype OwnScreen = OwnScreen(userId: string, finishing: bool, selected: seq<string>, checked: set<string>)

  /** `onCreate`: a blank user id finishes the screen, with nothing selected. */
  function OpenOwn(userIdExtra: Option<string>): (s: OwnScreen)
    ensures s.finishing <==> userIdExtra.None? || IsBlank(userIdExtra.value)
    ensures s.selected == [] && s.checked == {}
  {
    var userId := userIdExtra.GetOr("");
    OwnScreen(userId, IsBlank(userId), [], {})
  }

  /** The state of a screen after a backend response, the store after it and
      the toast shown. */
  datatype Deleted = Deleted(screen: OwnScreen, db: Store.Db, toast: string)

  /** The confirmed delete: the selection goes to `deleteGeoMarker`; on
      success the reported ids leave the selection and every card is
      unchecked; on failure only a toast appears. */
  function ConfirmDelete(s: OwnScreen, db: Store.Db, backend: Store.Backend): (r: Deleted)
    ensures r.screen.userId == s.userId && r.screen.finishing == s.finishing
    ensures Store.DeleteGeoMarker(db, s.selected, backend).Failure? ==>
      r.screen == s && r.db == db && r.toast == DeleteFailedText
    ensures Store.DeleteGeoMarker(db, s.selected, backend).Success? ==>
      && r.toast == DeletedText && r.screen.selected == [] && r.screen.checked == {}
      && forall id :: id in s.selected ==> id !in r.db.markers
  {
    match Store.DeleteGeoMarker(db, s.selected, backend)
    case Failure(_) => Deleted(s, db, DeleteFailedText)
    case Success(change) =>
      PruneEverything(s.selected, change.ids);
      Deleted(s.(selected := Prune(s.selected, change.ids), checked := {}), change.db, DeletedText)
  }

  /** Since the ids deleted are the ids selected, a successful delete leaves
      nothing selected, hides the delete button, and keeps the screen's
      selection and cards in agreement. */
  lemma DeleteClearsSelection(s: OwnScreen, db: Store.Db, backend: Store.Backend, itemCount: int)
    requires InSync(s.checked, s.selected)
    ensures var r := ConfirmDelete(s, db, backend);
      && InSync(r.screen.checked, r.screen.selected)
      && (r.toast == DeletedText ==> !UpdateUi(itemCount, r.screen.selected).deleteVisible)
  {
  }

  /** The saved-markers screen. `userDocId` is set once the user document is
      known; `listed` is the saved list the screen queries markers for;
      `restarting` is set when the screen finishes to start itself again. */
  datatype SavedScreen = SavedScreen(
    userId: string,
    finishing: bool,
    userDocId: Option<string>,
    listed: Option<seq<string>>,
    emptyVisible: bool,
    loadingVisible: bool,
    selected: seq<string>,
    checked: set<string>,
    restarting: bool)

  /** `onCreate` with the answer of `getUserByUid`: a blank id or a failed
      lookup finishes the screen; a user without saved ids shows the empty
      text and hides the loading screen; otherwise the user document id is
      recorded and the saved ids are listed. The lookup runs even for a
      blank id, since finishing does not stop `onCreate`. */
  function OpenSaved(userIdExtra: Option<string>, db: Store.Db, backend: Store.Backend): (s: SavedScreen)
    ensures s.selected == [] && s.checked == {} && !s.restarting
    ensures s.finishing <==>
      userIdExtra.None? || IsBlank(userIdExtra.value)
      || Store.GetUserByUid(db, userIdExtra.GetOr(""), backend).Failure?
    ensures s.listed.Some? <==> s.userDocId.Some?
    ensures s.listed.Some? ==> s.listed.value != []
    ensures s.listed.Some? ==>
      var found := Store.GetUserByUid(db, s.userId, backend);
      && found.Success?
      && found.value.docId == s.userDocId.value
      && found.value.user.geoMarkers == s.listed
    ensures s.emptyVisible <==>
      var found := Store.GetUserByUid(db, s.userId, backend);
      found.Success? && (found.value.user.geoMarkers.None? || found.value.user.geoMarkers.value == [])
    ensures s.emptyVisible ==> !s.loadingVisible
    ensures var found := Store.GetUserByUid(db, userIdExtra.GetOr(""), backend);
      found.Success? && found.value.user.geoMarkers.Some? && found.value.user.geoMarkers.value != [] ==>
        && s.userDocId == Some(found.value.docId)
        && s.listed == found.value.user.geoMarkers
        && !s.emptyVisible && s.loadingVisible
  {
    var userId := userIdExtra.GetOr("");
    var start := SavedScreen(userId, IsBlank(userId), None, None, false, true, [], {}, false);
    match Store.GetUserByUid(db, userId, backend)
    case Failure(_) => start.(finishing := true)
    case Success(doc) =>
      if doc.user.geoMarkers.Some? && doc.user.geoMarkers.value != [] then
        start.(userDocId := Some(doc.docId), listed := doc.user.geoMarkers)
      else
        start.(emptyVisible := true, loadingVisible := false)
  }

  datatype Removed = Removed(screen: SavedScreen, db: Store.Db, toast: string)

  /** The confirmed remove: the selection goes to `removeGeoMarkerFromSaved`
      for the recorded user document; on success the reported ids leave the
      selection and the screen restarts; on failure only a toast appears.
      The document id is a late-initialised field, so the remove needs the
      lookup to have recorded it. */
  function ConfirmRemove(s: SavedScreen, db: Store.Db, backend: Store.Backend): (r: Removed)
    requires s.userDocId.Some?
    ensures Store.RemoveGeoMarkerFromSaved(db, s.userDocId.value, s.selected, backend).Failure? ==>
      r.screen == s && r.db == db && r.toast == DeleteFailedText
    ensures Store.RemoveGeoMarkerFromSaved(db, s.userDocId.value, s.selected, backend).Success? ==>
      && r.toast == DeletedText && r.screen.selected == []
      && r.screen.finishing && r.screen.restarting
      && r.db.markers == db.markers
  {
    match Store.RemoveGeoMarkerFromSaved(db, s.userDocId.value, s.selected, backend)
    case Failure(_) => Removed(s, db, DeleteFailedText)
    case Success(change) =>
      PruneEverything(s.selected, change.ids);
      Removed(s.(selected := Prune(s.selected, change.ids), finishing := true, restarting := true),
              change.db, DeletedText)
  }

  /** After a successful remove, none of the ids that were selected is in the
      user document's saved list any more, and the markers themselves stay. */
  lemma RemoveUnsaves(s: SavedScreen, db: Store.Db, backend: Store.Backend, i: nat, id: string)
    requires s.userDocId.Some?
    requires ConfirmRemove(s, db, backend).toast == DeletedText
    requires i < |db.users| && db.users[i].docId == s.userDocId.value
    requires id in s.selected
    ensures var after := ConfirmRemove(s, db, backend).db;
      && i < |after.users|
      && after.users[i].user.geoMarkers.Some?
      && id !in after.users[i].user.geoMarkers.value
      && (id in db.markers ==> id in after.markers)
  {
  }
}

=== FILE: models.dfy ===
/** The data shapes stored in the backend. They follow the screens that build
    and read them: a marker carries its owner as `uid`, a creation time and
    its type as a string, and a user's `geoMarkers` is a list of marker ids. */
module Models {
  import opened Wrappers
  import opened Text

  /** The marker categories of the enum `GeoType`. */
  datatype GeoType = InterestPoint | Warning {

    /** The enum constant's `name`. */
    function Name(): string {
      match this
      case InterestPoint => "INTEREST_POINT"
      case Warning => "WARNING"
    }
  }

  /** `GeoType.values()`: every constant, in declaration order. */
  function GeoTypes(): (r: seq<GeoType>)
    ensures |r| == 2 && r[0] != r[1]
    ensures InterestPoint in r && Warning in r
  {
    [InterestPoint, Warning]
  }

  /** `GeoType` has no constant besides the two listed by `GeoTypes`. */
  lemma GeoTypesExhaustive(t: GeoType)
    ensures t in GeoTypes()
  {
    match t
    case InterestPoint =>
    case Warning =>
  }

  /** A latitude/longitude pair in degrees. */
  datatype LatLng = LatLng(lat: real, lng: real)

  /** A geo-marker document. Every field is nullable and defaults to null. */
  datatype GeoMarker = GeoMarker(
    id: Option<string>,
    uid: Option<string>,
    title: Option<string>,
    description: Option<string>,
    latLng: Option<LatLng>,
    markerType: Option<string>,
    createdOn: Option<int>)

  /** The no-argument construction of a marker: every field null. */
  function EmptyGeoMarker(): (m: GeoMarker)
    ensures m.id.None? && m.uid.None? && m.title.None? && m.description.None?
    ensures m.latLng.None? && m.markerType.None? && m.createdOn.None?
  {
    GeoMarker(None, None, None, None, None, None, None)
  }

  /** The signed-in account as the authentication backend reports it; its
      email may be null. */
  datatype AuthUser = AuthUser(uid: string, email: Option<string>)

  /** A user document. `geoMarkers` lists the ids of the markers the user saved. */
  datatype User = User(
    userId: Option<string>,
    userEmail: Option<string>,
    userName: Option<string>,
    geoMarkers: Option<seq<string>>)

  /** The no-argument construction of a user: every field null. */
  function EmptyUser(): (u: User)
    ensures u.userId.None? && u.userEmail.None? && u.userName.None? && u.geoMarkers.None?
  {
    User(None, None, None, None)
  }

  /** `TextUtils.isEmpty`: null or the empty string. */
  predicate TextIsEmpty(s: Option<string>) {
    s.None? || s.value == ""
  }

  /** The secondary constructor `User(firebaseUser, geoMarkers)`, step by step:
      it starts from the empty user, copies the uid and email, fills the name
      from the email when the name is still empty, and stores the list. */
  function UserOf(auth: AuthUser, saved: seq<string>): (u: User)
    ensures u.userId == Some(auth.uid)
    ensures u.userEmail == auth.email
    ensures u.userName == auth.email
    ensures u.geoMarkers == Some(saved)
  {
    var u0 := EmptyUser();
    var u1 := u0.(userId := Some(auth.uid));
    var u2 := u1.(userEmail := auth.email);
    var u3 := if TextIsEmpty(u2.userName) then u2.(userName := auth.email) else u2;
    u3.(geoMarkers := Some(saved))
  }

  /** The marker type strings the creation form stores ("WARNING" and
      "INTEREST POINT") are not both enum names: the point-of-interest string
      has a space where the constant has an underscore. */
  lemma StoredTypesVersusEnumNames()
    ensures UpperAscii("Warning") == Warning.Name()
    ensures forall t: GeoType :: UpperAscii("Interest point") != t.Name()
  {
    assert UpperAscii("Warning") == "WARNING";
    assert UpperAscii("Interest point") == "INTEREST POINT";
  }
}

=== FILE: passwords.dfy ===
/** The password checks of the utilities file: `isValidLoginPassword` and the
    scorer `isValidPassword`, which returns whether a password is acceptable
    together with a strength from 0 to 5. */
module Passwords {
  import opened Text

  /** Minimum length of an acceptable password, counted in UTF-16 code units
      after trimming. */
  const MinLength: nat := 6

  /** Membership in the regex class `[~!@#$%\^&*()\-_=+\|\[{\]};:'",<.>/?]`,
      listed in the order the class names them: printable ASCII punctuation,
      disjoint from the digit and letter classes. */
  function IsSpecial(c: char): (r: bool)
    ensures r ==> '!' <= c <= '~'
    ensures r ==> !IsAsciiDigit(c) && !IsAsciiUpper(c) && !IsAsciiLower(c)
  {
    || c == '~' || c == '!' || c == '@' || c == '#' || c == '$' || c == '%'
    || c == '^' || c == '&' || c == '*' || c == '(' || c == ')' || c == '-'
    || c == '_' || c == '=' || c == '+' || c == '|' || c == '[' || c == '{'
    || c == ']' || c == '}' || c == ';' || c == ':' || c == '\'' || c == '"'
    || c == ',' || c == '<' || c == '.' || c == '>' || c == '/' || c == '?'
  }

  /** The four bracket expressions the scorer searches for. */
  datatype CharClass = Digits | Capitals | Smalls | Specials

  predicate InClass(k: CharClass, c: char) {
    match k
    case Digits => IsAsciiDigit(c)
    case Capitals => IsAsciiUpper(c)
    case Smalls => IsAsciiLower(c)
    case Specials => IsSpecial(c)
  }

  /** Whether the Java regex `.*[class].*` matches the whole of `pass`: some
      character is in the class, and no character is a line terminator
      (neither `.` nor the class can consume one). */
  predicate MatchesAnywhere(pass: string, k: CharClass) {
    SingleLine(pass) && Contains(pass, k)
  }

  /** No character of `pass` is a line terminator. */
  predicate SingleLine(pass: string) {
    forall i :: 0 <= i < |pass| ==> !IsLineTerminator(pass[i])
  }

  /** Some character of `pass` is in the class. */
  predicate Contains(pass: string, k: CharClass) {
    exists i :: 0 <= i < |pass| && InClass(k, pass[i])
  }

  /** No class contains a line terminator. */
  lemma ClassesSingleLine(k: CharClass, c: char)
    requires InClass(k, c)
    ensures !IsLineTerminator(c)
  {
  }

  /** `MatchesAnywhere` is what `Matcher.matches()` decides for `.*[class].*`:
      the text splits into a prefix `.*` accepts, one character of the class,
      and a suffix `.*` accepts. */
  lemma MatchesAnywhereIsRegexMatch(pass: string, k: CharClass)
    ensures MatchesAnywhere(pass, k) <==>
      exists i :: 0 <= i < |pass| && SingleLine(pass[..i]) && InClass(k, pass[i]) && SingleLine(pass[i + 1..])
  {
    if MatchesAnywhere(pass, k) {
      var i :| 0 <= i < |pass| && InClass(k, pass[i]);
      assert SingleLine(pass[..i]) && SingleLine(pass[i + 1..]);
    }
    if exists i :: 0 <= i < |pass| && SingleLine(pass[..i]) && InClass(k, pass[i]) && SingleLine(pass[i + 1..]) {
      var i :| 0 <= i < |pass| && SingleLine(pass[..i]) && InClass(k, pass[i]) && SingleLine(pass[i + 1..]);
      forall j | 0 <= j < |pass|
        ensures !IsLineTerminator(pass[j])
      {
        if j < i {
          assert pass[j] == pass[..i][j];
        } else if j == i {
          ClassesSingleLine(k, pass[i]);
        } else {
          assert pass[j] == pass[i + 1..][j - i - 1];
        }
      }
    }
  }

  /** The five independent criteria, each worth one point. */
  datatype Criterion = MinimumLength | Digit | Capital | Small | Special

  const AllCriteria: seq<Criterion> := [MinimumLength, Digit, Capital, Small, Special]

  /** Whether `pass` meets one criterion. The length is measured in UTF-16
      code units on the trimmed text; the character classes are searched in
      the raw text. */
  predicate Holds(c: Criterion, pass: string) {
    match c
    case MinimumLength => Utf16Length(Trim(pass)) >= MinLength
    case Digit => MatchesAnywhere(pass, Digits)
    case Capital => MatchesAnywhere(pass, Capitals)
    case Small => MatchesAnywhere(pass, Smalls)
    case Special => MatchesAnywhere(pass, Specials)
  }

  /** What meeting a criterion tells about the text: the length criterion
      needs a non-blank trimmed text of at least three characters, a class
      criterion a non-empty text on one line. */
  lemma HoldsMeans(c: Criterion, pass: string)
    requires Holds(c, pass)
    ensures c.MinimumLength? ==> !IsBlank(pass) && |Trim(pass)| >= MinLength / 2
    ensures !c.MinimumLength? ==> SingleLine(pass) && pass != []
  {
  }

  /** The criteria among `cs` that `pass` meets, in the order of `cs`. */
  function Met(cs: seq<Criterion>, pass: string): (r: seq<Criterion>)
    ensures forall c :: c in r <==> c in cs && Holds(c, pass)
    ensures |r| <= |cs|
  {
    if cs == [] then []
    else (if Holds(cs[0], pass) then [cs[0]] else []) + Met(cs[1..], pass)
  }

  /** The `Pair<Boolean, Int>` returned by the scorer. */
  datatype Score = Score(valid: bool, strength: int)

  function Point(b: bool): nat {
    if b then 1 else 0
  }

  /** `isValidPassword`: checks the length, then adds one point per criterion
      in the order the source tests them. */
  function IsValidPassword(pass: string): (r: Score)
    ensures r.valid <==> Utf16Length(Trim(pass)) >= MinLength
    ensures 0 <= r.strength <= 5
    ensures r.valid ==> r.strength >= 1
    ensures r.strength == 0 ==> !r.valid
  {
    var valid := Utf16Length(Trim(pass)) >= MinLength;
    var strength := if valid then 1 else 0;
    var strength := strength + Point(Holds(Digit, pass));
    var strength := strength + Point(Holds(Capital, pass));
    var strength := strength + Point(Holds(Small, pass));
    var strength := strength + Point(Holds(Special, pass));
    Score(valid, strength)
  }

  /** `isValidLoginPassword`: only the length check of the scorer. */
  function IsValidLoginPassword(pass: string): (r: bool)
    ensures r <==> Utf16Length(Trim(pass)) >= MinLength
    ensures r ==> |Trim(pass)| >= MinLength / 2
    ensures r == IsValidPassword(pass).valid
  {
    Utf16Length(Trim(pass)) >= MinLength
  }

  /** Every criterion is listed once in `AllCriteria`. */
  lemma CriterionListed(c: Criterion)
    ensures c in AllCriteria
  {
    match c
    case MinimumLength =>
    case Digit =>
    case Capital =>
    case Small =>
    case Special =>
  }

  /** The strength is the number of criteria the password meets, and a
      criterion is met exactly when it is listed among them. */
  lemma StrengthCountsCriteria(pass: string)
    ensures IsValidPassword(pass).strength == |Met(AllCriteria, pass)|
    ensures forall c :: c in Met(AllCriteria, pass) <==> Holds(c, pass)
  {
    var cs := AllCriteria;
    assert cs[1..][1..][1..][1..][1..] == [];
    assert |Met(cs[1..][1..][1..][1..], pass)| == Point(Holds(Special, pass));
    assert |Met(cs[1..][1..][1..], pass)| == Point(Holds(Small, pass)) + Point(Holds(Special, pass));
    assert |Met(cs[1..][1..], pass)| ==
      Point(Holds(Capital, pass)) + Point(Holds(Small, pass)) + Point(Holds(Special, pass));
    assert |Met(cs[1..], pass)| ==
      Point(Holds(Digit, pass)) + Point(Holds(Capital, pass)) + Point(Holds(Small, pass)) + Point(Holds(Special, pass));
    forall c
      ensures c in Met(AllCriteria, pass) <==> Holds(c, pass)
    {
      CriterionListed(c);
    }
  }

  /** Backslash, backtick and space are not special characters. */
  lemma NotSpecialCharacters()
    ensures !IsSpecial('\\') && !IsSpecial('`') && !IsSpecial(' ')
  {
  }

  /** A line terminator anywhere in the text defeats every character-class
      check: only the length point can be earned. */
  lemma LineTerminatorBlocksClassPoints(pass: string, k: nat)
    requires k < |pass| && IsLineTerminator(pass[k])
    ensures IsValidPassword(pass).strength == Point(IsValidPassword(pass).valid)
  {
  }

  /** Only ASCII characters earn class points: a password without any
      ASCII character scores at most the length point. */
  lemma OnlyAsciiEarnsClassPoints(pass: string)
    requires forall i :: 0 <= i < |pass| ==> pass[i] as int >= 128
    ensures IsValidPassword(pass).strength == Point(IsValidPassword(pass).valid)
  {
  }

  /** Printable ASCII text without spaces keeps its length through
      trimming, counted in characters or in UTF-16 units. */
  lemma PrintableLength(p: string)
    requires p != [] && forall i :: 0 <= i < |p| ==> '!' <= p[i] <= '~'
    ensures Utf16Length(Trim(p)) == |p|
  {
    TrimUntouched(p);
    Utf16LengthBmp(p);
  }

  /** A password meeting every criterion scores (true, 5). */
  lemma AllCriteriaMet(p: string)
    requires forall c: Criterion :: Holds(c, p)
    ensures IsValidPassword(p) == Score(true, 5)
  {
    assert Holds(MinimumLength, p) && Holds(Digit, p) && Holds(Capital, p);
    assert Holds(Small, p) && Holds(Special, p);
  }

  /** "Abcdef1!" meets every criterion and scores (true, 5). */
  lemma ExampleStrongest()
    ensures IsValidPassword("Abcdef1!") == Score(true, 5)
  {
    var p := "Abcdef1!";
    forall c: Criterion
      ensures Holds(c, p)
    {
      assert SingleLine(p);
      match c
      case MinimumLength => PrintableLength(p);
      case Capital => assert InClass(Capitals, p[0]);
      case Small => assert InClass(Smalls, p[1]);
      case Digit => assert InClass(Digits, p[6]);
      case Special => assert InClass(Specials, p[7]);
    }
    AllCriteriaMet(p);
  }

  /** A short lower-case password scores (false, 1). */
  lemma ExampleShort()
    ensures IsValidPassword("abc") == Score(false, 1)
  {
    var p := "abc";
    assert SingleLine(p);
    assert Contains(p, Smalls) by { assert InClass(Smalls, p[0]); }
    assert !Contains(p, Digits);
    assert !Contains(p, Capitals);
    assert !Contains(p, Specials);
    PrintableLength(p);
  }

  /** The empty password scores (false, 0). */
  lemma ExampleEmpty()
    ensures IsValidPassword("") == Score(false, 0)
  {
  }

  /** Six capitals score (true, 2): the length point and the capital point. */
  lemma ExampleCapitals()
    ensures IsValidPassword("ABCDEF") == Score(true, 2)
  {
    var p := "ABCDEF";
    assert SingleLine(p);
    assert Contains(p, Capitals) by { assert InClass(Capitals, p[0]); }
    assert !Contains(p, Digits);
    assert !Contains(p, Smalls);
    assert !Contains(p, Specials);
    PrintableLength(p);
  }

  /** The length check sees the trimmed text, the class checks the raw text:
      "   a1" is too short but earns the digit and small-letter points. */
  lemma ExampleLeadingSpaces()
    ensures IsValidPassword("   a1") == Score(false, 2)
  {
    var p := "   a1";
    assert SingleLine(p);
    assert Contains(p, Smalls) by { assert InClass(Smalls, p[3]); }
    assert Contains(p, Digits) by { assert InClass(Digits, p[4]); }
    assert !Contains(p, Capitals);
    assert !Contains(p, Specials);
    assert |Trim(p)| <= 2 by {
      assert TrimStart(p) >= 3 by { assert IsWhitespace(p[0]) && IsWhitespace(p[1]) && IsWhitespace(p[2]); }
    }
  }

  /** Three emoji are long enough: each is a surrogate pair, so the trimmed
      text is six code units, though only three characters, and no class
      matches. The score is (true, 1). */
  lemma ExampleSurrogatePairs()
    ensures |"\U{1F600}\U{1F600}\U{1F600}"| == 3
    ensures IsValidPassword("\U{1F600}\U{1F600}\U{1F600}") == Score(true, 1)
  {
    var p := "\U{1F600}\U{1F600}\U{1F600}";
    assert SingleLine(p);
    assert !Contains(p, Digits);
    assert !Contains(p, Capitals);
    assert !Contains(p, Smalls);
    assert !Contains(p, Specials);
    TrimUntouched(p);
    Utf16LengthSupplementary(p);
  }
}

=== FILE: register.dfy ===
/** The registration screen: two text fields whose "ready" flags gate the
    submit button, a password-strength indicator, and a submit / failure
    cycle that disables and re-enables the form. */
module Register {
  import opened Wrappers
  import opened Text
  import Passwords

  /** `isValidEmail`: not empty and accepted by the platform's email pattern.
      The pattern is a parameter: its regex belongs to the platform. */
  function IsValidEmail(email: string, pattern: string -> bool): (r: bool)
    ensures email == [] ==> !r
    ensures email != [] ==> (r <==> pattern(email))
  {
    |email| > 0 && pattern(email)
  }

  /** A blank email field is never accepted, whatever the pattern. */
  lemma BlankEmailRejected(text: string, pattern: string -> bool)
    ensures IsBlank(text) ==> !IsValidEmail(Trim(text), pattern)
  {
  }

  /** `decidePassText`: a label for each strength the scorer can produce. */
  function DecidePassText(strength: int): (r: string)
    ensures 0 <= strength <= 5 <==> r != ""
  {
    match strength
    case 0 => "Extremely weak password"
    case 1 => "Weak password"
    case 2 => "Less weak password"
    case 3 => "Average password"
    case 4 => "Secure password"
    case 5 => "Really secure password"
    case _ => ""
  }

  /** Different strengths get different labels. */
  lemma PassTextsDistinct(i: int, j: int)
    requires 0 <= i <= 5 && 0 <= j <= 5 && i != j
    ensures DecidePassText(i) != DecidePassText(j)
  {
  }

  /** Kotlin's `Int` division, which truncates toward zero. */
  function TruncDiv(a: int, b: int): int
    requires b > 0
  {
    if a >= 0 then a / b else -((-a) / b)
  }

  /** The progress bar value `(100 * strength) / 5`. */
  function Progress(strength: int): (r: int)
    ensures r == 20 * strength
    ensures 0 <= strength <= 5 ==> 0 <= r <= 100
  {
    TruncDiv(100 * strength, 5)
  }

  /** The progress of any password's strength lies in 0..100, in steps of 20. */
  lemma ProgressOfScore(pass: string)
    ensures 0 <= Progress(Passwords.IsValidPassword(pass).strength) <= 100
    ensures Progress(Passwords.IsValidPassword(pass).strength) % 20 == 0
  {
  }

  /** Backend messages the failure handler recognises. */
  const EmailInUse := "The email address is already in use by another account."
  const InvalidEmail := "auth/invalid-email"
  const WeakPassword := "The given password is invalid. " + "[ Password should be at least 6 characters ]"

  /** The friendlier texts shown for them, and the generic fallback. */
  const EmailInUseText := "It looks like that email is already in use!"
  const InvalidEmailText := "Oops! The email you provided is invalid..."
  const WeakPasswordText := "Woah there! Your password is too weak..."
  const GenericErrorText := "Oops! Something went wrong... " + "Please try again later."

  /** The message shown for a failed account creation, given the exception's
      (nullable) message. */
  function ErrorMessage(message: Option<string>): (r: string)
    ensures message == Some(EmailInUse) <==> r == EmailInUseText
    ensures message == Some(InvalidEmail) <==> r == InvalidEmailText
    ensures message == Some(WeakPassword) <==> r == WeakPasswordText
    ensures message !in {Some(EmailInUse), Some(InvalidEmail), Some(WeakPassword)} <==> r == GenericErrorText
  {
    match message
    case Some(m) =>
      if m == EmailInUse then EmailInUseText
      else if m == InvalidEmail then InvalidEmailText
      else if m == WeakPassword then WeakPasswordText
      else GenericErrorText
    case None => GenericErrorText
  }

  /** The error shown under the email field while it is invalid. The source
      joins two literals without a space, so "something" and "like" run
      together; the model keeps the text as built. */
  const EmailFieldError := "Invalid email! It must look something" + "like 'example@email.com'"

  /** The error shown under the password field while it is too short. */
  const PasswordFieldError := "Password must be at least 6 characters long!"

  /** The strength indicator: progress value and text. */
  datatype Strength = Strength(progress: int, text: string)

  /** What the registration screen holds: field texts, the observed flags and
      the widget states they drive. `touchable` is false while the window
      carries `FLAG_NOT_TOUCHABLE`. */
  datatype Form = Form(
    emailText: string,
    passwordText: string,
    isEmailReady: bool,
    isPassReady: bool,
    emailError: Option<string>,
    passwordError: Option<string>,
    indicator: Option<Strength>,
    submitEnabled: bool,
    isLoading: bool,
    loadingVisible: bool,
    touchable: bool)

  /** The screen as it opens: empty fields, both flags false. */
  function InitialForm(): (f: Form)
    ensures !f.isEmailReady && !f.isPassReady && !f.submitEnabled && !f.isLoading
  {
    Form("", "", false, false, None, None, None, false, false, false, true)
  }

  datatype Event =
    | EmailEdited(text: string)
    | PasswordEdited(text: string)
    | SubmitClicked
    | SignUpSucceeded
    | SignUpFailed(message: Option<string>)

  /** What a step asks of the outside world. */
  datatype Effect =
    | NoEffect
    | CreateUser(email: string, password: string)
    | Toast(text: string)
    | ToastAndFinish(text: string)

  datatype Step = Step(form: Form, effect: Effect)

  /** `checkForm`, run whenever either ready flag is assigned: the button
      follows the two flags and nothing else changes. */
  function CheckForm(f: Form): (g: Form)
    ensures g.submitEnabled <==> f.isEmailReady && f.isPassReady
    ensures g.(submitEnabled := f.submitEnabled) == f
  {
    f.(submitEnabled := f.isEmailReady && f.isPassReady)
  }

  /** `showHideLoadScreen`, run whenever `isLoading` is assigned: the overlay
      follows the flag and nothing else changes. */
  function ShowHideLoadScreen(f: Form): (g: Form)
    ensures g.loadingVisible == f.isLoading
    ensures g.(loadingVisible := f.loadingVisible) == f
  {
    f.(loadingVisible := f.isLoading)
  }

  /** An email edit: ready iff the trimmed text passes the email check; the
      field shows its error exactly while it is not ready. */
  function EditEmail(f: Form, text: string, pattern: string -> bool): (g: Form)
    ensures g.emailText == text && g.passwordText == f.passwordText
    ensures g.isEmailReady <==> IsValidEmail(Trim(text), pattern)
    ensures g.isPassReady == f.isPassReady
    ensures g.emailError.None? <==> g.isEmailReady
    ensures g.submitEnabled <==> g.isEmailReady && f.isPassReady
    ensures g.isLoading == f.isLoading && g.loadingVisible == f.loadingVisible && g.touchable == f.touchable
  {
    var ready := IsValidEmail(Trim(text), pattern);
    var g := CheckForm(f.(emailText := text, isEmailReady := ready));
    g.(emailError := if ready then None else Some(EmailFieldError))
  }

  /** A password edit: ready iff the scorer accepts the trimmed text; the
      indicator shows 20 per criterion the trimmed text meets, with the label
      for that count. */
  function EditPassword(f: Form, text: string): (g: Form)
    ensures g.passwordText == text && g.emailText == f.emailText
    ensures g.isPassReady <==> Utf16Length(Trim(text)) >= Passwords.MinLength
    ensures g.isEmailReady == f.isEmailReady
    ensures g.passwordError.None? <==> g.isPassReady
    ensures g.submitEnabled <==> f.isEmailReady && g.isPassReady
    ensures var met := |Passwords.Met(Passwords.AllCriteria, Trim(text))|;
      g.indicator == Some(Strength(20 * met, DecidePassText(met)))
    ensures 0 <= g.indicator.value.progress <= 100 && g.indicator.value.text != ""
    ensures g.isLoading == f.isLoading && g.loadingVisible == f.loadingVisible && g.touchable == f.touchable
  {
    TrimIdempotent(text);
    Passwords.StrengthCountsCriteria(Trim(text));
    var check := Passwords.IsValidPassword(Trim(text));
    var g := CheckForm(f.(passwordText := text, isPassReady := check.valid));
    var shown := Strength(Progress(check.strength), DecidePassText(check.strength));
    g.(indicator := Some(shown), passwordError := if check.valid then None else Some(PasswordFieldError))
  }

  /** The submit click: touch blocked, button disabled, loading shown. */
  function Lock(f: Form): (g: Form)
    ensures g.isLoading && g.loadingVisible && !g.touchable && !g.submitEnabled
    ensures g.emailText == f.emailText && g.passwordText == f.passwordText
    ensures g.isEmailReady == f.isEmailReady && g.isPassReady == f.isPassReady
  {
    ShowHideLoadScreen(f.(touchable := false, submitEnabled := false, isLoading := true))
  }

  /** The failure handler: touch restored, button enabled, loading hidden. */
  function Unlock(f: Form): (g: Form)
    ensures !g.isLoading && !g.loadingVisible && g.touchable && g.submitEnabled
    ensures g.emailText == f.emailText && g.passwordText == f.passwordText
    ensures g.isEmailReady == f.isEmailReady && g.isPassReady == f.isPassReady
  {
    ShowHideLoadScreen(f.(touchable := true, submitEnabled := true, isLoading := false))
  }

  const CreatedText := "Successfully created account!"

  /** One event. Text edits reach the screen only while it is touchable, a
      click whenever the button is enabled (by touch or by keyboard), and a
      sign-up response only while a request is outstanding. */
  function Next(f: Form, e: Event, pattern: string -> bool): (r: Step)
    ensures e.EmailEdited? && f.touchable ==>
      && r.form.emailText == e.text
      && (r.form.isEmailReady <==> IsValidEmail(Trim(e.text), pattern))
      && (r.form.emailError.None? <==> r.form.isEmailReady)
      && (r.form.submitEnabled <==> r.form.isEmailReady && f.isPassReady)
    ensures e.PasswordEdited? && f.touchable ==>
      && r.form.passwordText == e.text
      && (r.form.isPassReady <==> Utf16Length(Trim(e.text)) >= Passwords.MinLength)
      && (r.form.passwordError.None? <==> r.form.isPassReady)
      && (r.form.submitEnabled <==> f.isEmailReady && r.form.isPassReady)
      && r.form.indicator.Some? && 0 <= r.form.indicator.value.progress <= 100
    ensures e.SubmitClicked? && f.submitEnabled ==>
      && r.form.isLoading && r.form.loadingVisible
      && !r.form.submitEnabled && !r.form.touchable
      && r.effect == CreateUser(Trim(f.emailText), Trim(f.passwordText))
    ensures e.SignUpFailed? && f.isLoading ==>
      && !r.form.isLoading && !r.form.loadingVisible
      && r.form.submitEnabled && r.form.touchable
      && r.effect == Toast(ErrorMessage(e.message))
    ensures e.SignUpSucceeded? && f.isLoading ==> r.effect == ToastAndFinish(CreatedText)
    ensures r.effect.NoEffect? ==> r.form == f || e.EmailEdited? || e.PasswordEdited?
  {
    match e
    case EmailEdited(text) =>
      if !f.touchable then Step(f, NoEffect) else Step(EditEmail(f, text, pattern), NoEffect)
    case PasswordEdited(text) =>
      if !f.touchable then Step(f, NoEffect) else Step(EditPassword(f, text), NoEffect)
    case SubmitClicked =>
      if !f.submitEnabled then Step(f, NoEffect)
      else Step(Lock(f), CreateUser(Trim(f.emailText), Trim(f.passwordText)))
    case SignUpSucceeded =>
      if !f.isLoading then Step(f, NoEffect) else Step(f, ToastAndFinish(CreatedText))
    case SignUpFailed(message) =>
      if !f.isLoading then Step(f, NoEffect) else Step(Unlock(f), Toast(ErrorMessage(message)))
  }

  /** What holds of every screen state the events can reach: each flag
      reflects its field, the button reflects the flags except while a request
      is outstanding, and the overlay and the touch block follow `isLoading`. */
  ghost predicate Consistent(f: Form, pattern: string -> bool) {
    && (f.isEmailReady <==> IsValidEmail(Trim(f.emailText), pattern))
    && (f.isPassReady <==> Utf16Length(Trim(f.passwordText)) >= Passwords.MinLength)
    && (f.loadingVisible <==> f.isLoading)
    && (f.touchable <==> !f.isLoading)
    && (!f.isLoading ==> (f.submitEnabled <==> f.isEmailReady && f.isPassReady))
    && (f.isLoading ==> !f.submitEnabled && f.isEmailReady && f.isPassReady)
  }

  /** The screen as it opens is consistent. */
  lemma InitialConsistent(pattern: string -> bool)
    ensures Consistent(InitialForm(), pattern)
  {
  }

  /** Every event keeps the screen consistent. */
  lemma NextConsistent(f: Form, e: Event, pattern: string -> bool)
    requires Consistent(f, pattern)
    ensures Consistent(Next(f, e, pattern).form, pattern)
  {
  }

  /** The screen after a sequence of events. */
  function Run(f: Form, events: seq<Event>, pattern: string -> bool): Form
    decreases |events|
  {
    if events == [] then f else Run(Next(f, events[0], pattern).form, events[1..], pattern)
  }

  /** Every reachable screen is consistent: in particular the submit button is
      enabled exactly when both fields are ready and no request is pending. */
  lemma {:induction false} RunConsistent(f: Form, events: seq<Event>, pattern: string -> bool)
    requires Consistent(f, pattern)
    ensures Consistent(Run(f, events, pattern), pattern)
    decreases |events|
  {
    if events != [] {
      NextConsistent(f, events[0], pattern);
      RunConsistent(Next(f, events[0], pattern).form, events[1..], pattern);
    }
  }

  /** A submission from a reachable screen sends an email that passes the
      email check and a password long enough to be accepted, both trimmed:
      six UTF-16 code units, which is at least three characters. */
  lemma SubmittedCredentialsValid(events: seq<Event>, pattern: string -> bool)
    ensures var f := Run(InitialForm(), events, pattern);
      var r := Next(f, SubmitClicked, pattern);
      r.effect.CreateUser? ==>
        && r.effect.email == Trim(f.emailText)
        && IsValidEmail(r.effect.email, pattern)
        && r.effect.password == Trim(f.passwordText)
        && Utf16Length(r.effect.password) >= Passwords.MinLength
        && |r.effect.password| >= Passwords.MinLength / 2
  {
    InitialConsistent(pattern);
    RunConsistent(InitialForm(), events, pattern);
  }
}

=== FILE: selection.dfy ===
/** The multi-select state shared by the marker list screens: the ids of the
    selected markers, toggled by a long press and pruned after a delete or a
    remove, and the widgets that follow from it. */
module Selection {

  import opened Lists

  /** The long-press handler: a selected id is dropped, any other id is
      appended at the end. */
  function Toggle(selected: seq<string>, id: string): (r: seq<string>)
    ensures id in selected ==> |r| == |selected| - 1
    ensures id !in selected ==> r == selected + [id]
  {
    if id in selected then RemoveFirst(selected, id) else selected + [id]
  }

  /** On a selection without duplicates, a toggle flips the membership of
      its id, leaves every other id's membership alone, and keeps the
      selection free of duplicates. */
  lemma ToggleMembership(selected: seq<string>, id: string)
    requires NoDuplicates(selected)
    ensures id in Toggle(selected, id) <==> id !in selected
    ensures forall other :: other != id ==> (other in Toggle(selected, id) <==> other in selected)
    ensures NoDuplicates(Toggle(selected, id))
  {
    if id in selected {
      CutMembership(selected, IndexOf(selected, id));
    }
  }

  /** Toggling the same id twice restores the set of selected ids; when the id
      was not selected it restores the selection exactly. */
  lemma ToggleTwice(selected: seq<string>, id: string)
    requires NoDuplicates(selected)
    ensures forall x :: x in Toggle(Toggle(selected, id), id) <==> x in selected
    ensures id !in selected ==> Toggle(Toggle(selected, id), id) == selected
  {
    ToggleMembership(selected, id);
    var once := Toggle(selected, id);
    ToggleMembership(once, id);
    if id !in selected {
      assert IndexOf(once, id) == |selected|;
      assert once[..|selected|] == selected;
    }
  }

  const ConfirmSingular := "Are you sure you want to delete this marker?"
  const ConfirmPlural := "Are you sure you want to delete these markers?"

  /** The delete confirmation: plural exactly when more than one id is selected. */
  function ConfirmMessage(selected: seq<string>): (r: string)
    ensures r == ConfirmPlural <==> |selected| > 1
    ensures r == ConfirmSingular <==> |selected| <= 1
  {
    var noun := if |selected| > 1 then "these markers" else "this marker";
    var r := "Are you sure you want to delete " + noun + "?";
    assert ConfirmPlural[37] != ConfirmSingular[37];
    r
  }

  /** The widget visibility that `updateUI` sets. */
  datatype View = View(emptyVisible: bool, loadingVisible: bool, deleteVisible: bool)

  /** `updateUI`: the empty-state text follows the item count, the loading
      screen is always hidden, and the delete button follows the selection. */
  function UpdateUi(itemCount: int, selected: seq<string>): (v: View)
    ensures v.emptyVisible <==> itemCount <= 0
    ensures !v.loadingVisible
    ensures v.deleteVisible <==> |selected| > 0
  {
    View(itemCount <= 0, false, selected != [])
  }

  /** Selecting one marker on an empty selection shows the delete button with
      a singular confirmation; a second distinct one makes it plural. */
  lemma SelectingShowsDelete(first: string, second: string)
    requires first != second
    ensures UpdateUi(1, Toggle([], first)).deleteVisible
    ensures ConfirmMessage(Toggle([], first)) == ConfirmSingular
    ensures ConfirmMessage(Toggle(Toggle([], first), second)) == ConfirmPlural
    ensures !UpdateUi(1, Toggle(Toggle([], first), first)).deleteVisible
  {
    assert Toggle([], first) == [first];
    assert Toggle([first], second) == [first, second];
    assert IndexOf([first], first) == 0;
  }
}

=== FILE: store.dfy ===
/** The backend calls of `FirebaseDB`, over an abstract document store: the
    `geo-markers` collection as a map from document id to marker, and the
    `users` collection as its documents in the order a query returns them.
    Each call returns a `Result` in place of its success / failure callbacks. */
module Store {
  import opened Wrappers
  import opened Models
  import opened Lists

  /** A document of the `users` collection. */
  datatype UserDoc = UserDoc(docId: string, user: User)

  datatype Db = Db(markers: map<string, GeoMarker>, users: seq<UserDoc>)

  /** Document ids are unique within the `users` collection. */
  predicate WellFormed(db: Db) {
    forall i, j :: 0 <= i < j < |db.users| ==> db.users[i].docId != db.users[j].docId
  }

  /** Whether the backend completes a request or fails it (network, permissions,
      …) with an exception whose message may be null. */
  datatype Backend = Available | Fault(message: Option<string>)

  /** Why a call failed. */
  datatype DbError =
    | UserNotFound
    | MultipleUsersFound
    | EmptyIdList
    | DocumentNotFound      // the backend rejects an update of a missing document; its text is the backend's own
    | Backend(message: Option<string>)
  {
    /** The message of the exception handed to `onFailure`. The backend's
        not-found text is outside this model and is given as null; the only
        call that yields it is followed by a fixed toast, so no screen shows it. */
    function Message(): Option<string> {
      match this
      case UserNotFound => Some("User not found")
      case MultipleUsersFound => Some("Multiple users found")
      case EmptyIdList => Some("Empty ID list")
      case DocumentNotFound => None
      case Backend(m) => m
    }
  }

  /** The result of a delete or remove: the store afterwards and the ids the
      call reports to `onSuccess`. */
  datatype Change = Change(db: Db, ids: seq<string>)

  function SetOf(ids: seq<string>): set<string> {
    set i | i in ids
  }

  /** The query `whereEqualTo("userId", uid)` on `users`, in result order. */
  function UsersWithUid(users: seq<UserDoc>, uid: string): (r: seq<UserDoc>)
    ensures forall d :: d in r <==> d in users && d.user.userId == Some(uid)
    ensures |r| <= |users|
  {
    if users == [] then []
    else (if users[0].user.userId == Some(uid) then [users[0]] else []) + UsersWithUid(users[1..], uid)
  }

  /** `getUserByUid`: the single user document carrying `uid`. */
  function GetUserByUid(db: Db, uid: string, backend: Backend): (r: Result<UserDoc, DbError>)
    ensures backend.Fault? ==> r == Failure(Backend(backend.message))
    ensures backend.Available? ==>
      (r == Failure(UserNotFound) <==> forall d :: d in db.users ==> d.user.userId != Some(uid))
    ensures r == Failure(MultipleUsersFound) <==> backend.Available? && |UsersWithUid(db.users, uid)| > 1
    ensures r.Success? <==> backend.Available? && |UsersWithUid(db.users, uid)| == 1
    ensures r.Success? ==>
      && r.value in db.users && r.value.user.userId == Some(uid)
      && forall d :: d in db.users && d.user.userId == Some(uid) ==> d == r.value
  {
    if backend.Fault? then Failure(Backend(backend.message))
    else
      var found := UsersWithUid(db.users, uid);
      if |found| == 0 then
        assert forall d :: d in db.users ==> d.user.userId != Some(uid);
        Failure(UserNotFound)
      else if |found| > 1 then
        assert found[0] in db.users;
        Failure(MultipleUsersFound)
      else
        assert found == [found[0]];
        assert found[0] in db.users;
        Success(found[0])
  }

  /** The documents with one document's user replaced by `edit` of it. */
  function EditUser(users: seq<UserDoc>, docId: string, edit: User -> User): (r: seq<UserDoc>)
    ensures |r| == |users|
    ensures forall i :: 0 <= i < |users| ==> r[i].docId == users[i].docId
    ensures forall i :: 0 <= i < |users| && users[i].docId == docId ==> r[i].user == edit(users[i].user)
    ensures forall i :: 0 <= i < |users| && users[i].docId != docId ==> r[i] == users[i]
  {
    seq(|users|, i requires 0 <= i < |users| =>
      if users[i].docId == docId then UserDoc(docId, edit(users[i].user)) else users[i])
  }

  /** `FieldValue.arrayUnion(id)` on a nullable array: appends the id unless
      it is already present; a null field becomes a one-element array. */
  function ArrayUnion(saved: Option<seq<string>>, id: string): (r: seq<string>)
    ensures forall y :: y in r <==> y == id || (saved.Some? && y in saved.value)
    ensures saved.Some? && NoDuplicates(saved.value) ==> NoDuplicates(r)
    ensures saved.Some? ==> |saved.value| <= |r| && r[..|saved.value|] == saved.value
  {
    match saved
    case None => [id]
    case Some(s) => if id in s then s else s + [id]
  }

  /** `FieldValue.arrayRemove(ids…)` on a nullable array: drops every
      occurrence of every id; a null field becomes an empty array. */
  function ArrayRemove(saved: Option<seq<string>>, ids: seq<string>): (r: seq<string>)
    ensures forall y :: y in r <==> saved.Some? && y in saved.value && y !in ids
  {
    match saved
    case None => []
    case Some(s) => Prune(s, ids)
  }

  /** `addGeoMarkerToUser`: adds the marker id to the saved list of the first
      user document carrying `uid`. The source reads the first query result
      without checking that there is one, so a caller must know the user
      exists unless the query itself fails. */
  function AddGeoMarkerToUser(db: Db, uid: string, markerId: string, backend: Backend): (r: Result<Db, DbError>)
    requires backend.Fault? || |UsersWithUid(db.users, uid)| > 0
    ensures backend.Fault? <==> r.Failure?
    ensures r.Success? ==>
      var target := UsersWithUid(db.users, uid)[0];
      && r.value.markers == db.markers
      && |r.value.users| == |db.users|
      && forall i :: 0 <= i < |db.users| ==>
        var before := db.users[i];
        var after := r.value.users[i];
        && after.docId == before.docId
        && (before.docId != target.docId ==> after == before)
        && (before.docId == target.docId ==>
              && after.user == before.user.(geoMarkers := after.user.geoMarkers)
              && after.user.geoMarkers.Some?
              && forall y :: y in after.user.geoMarkers.value <==>
                   y == markerId || (before.user.geoMarkers.Some? && y in before.user.geoMarkers.value))
  {
    if backend.Fault? then Failure(Backend(backend.message))
    else
      var target := UsersWithUid(db.users, uid)[0];
      Success(db.(users := EditUser(db.users, target.docId,
        (u: User) => u.(geoMarkers := Some(ArrayUnion(u.geoMarkers, markerId))))))
  }

  /** `removeGeoMarkerFromSaved`: removes the ids from one user document's
      saved list, never from the marker collection. */
  function RemoveGeoMarkerFromSaved(db: Db, userDocId: string, ids: seq<string>, backend: Backend): (r: Result<Change, DbError>)
    ensures r == Failure(EmptyIdList) <==> ids == []
    ensures r == Failure(DocumentNotFound) <==>
      ids != [] && backend.Available? && forall d :: d in db.users ==> d.docId != userDocId
    ensures ids != [] && backend.Fault? ==> r == Failure(Backend(backend.message))
    ensures r.Success? <==> ids != [] && backend.Available? && exists d :: d in db.users && d.docId == userDocId
    ensures r.Success? ==>
      && r.value.ids == ids
      && r.value.db.markers == db.markers
      && |r.value.db.users| == |db.users|
      && forall i :: 0 <= i < |db.users| ==>
        var before := db.users[i];
        var after := r.value.db.users[i];
        && after.docId == before.docId
        && (before.docId != userDocId ==> after == before)
        && (before.docId == userDocId ==>
              && after.user == before.user.(geoMarkers := after.user.geoMarkers)
              && after.user.geoMarkers.Some?
              && forall y :: y in after.user.geoMarkers.value <==>
                   before.user.geoMarkers.Some? && y in before.user.geoMarkers.value && y !in ids)
  {
    if ids == [] then Failure(EmptyIdList)
    else if backend.Fault? then Failure(Backend(backend.message))
    else if forall d :: d in db.users ==> d.docId != userDocId then Failure(DocumentNotFound)
    else
      var users := EditUser(db.users, userDocId,
        (u: User) => u.(geoMarkers := Some(ArrayRemove(u.geoMarkers, ids))));
      Success(Change(db.(users := users), ids))
  }

  /** A write batch of deletes, one per id, committed together. */
  function CommitBatch(markers: map<string, GeoMarker>, ids: seq<string>): (r: map<string, GeoMarker>)
    ensures r.Keys == markers.Keys - SetOf(ids)
    ensures forall k :: k in r ==> r[k] == markers[k]
    decreases |ids|
  {
    if ids == [] then markers
    else CommitBatch(markers - {ids[0]}, ids[1..])
  }

  /** `deleteGeoMarker`: one id is deleted on its own, several in one batch,
      and an empty list is refused. */
  function DeleteGeoMarker(db: Db, ids: seq<string>, backend: Backend): (r: Result<Change, DbError>)
    ensures r == Failure(EmptyIdList) <==> ids == []
    ensures ids != [] ==> (r.Failure? <==> backend.Fault?)
    ensures r.Success? ==>
      && r.value.ids == ids
      && r.value.db.users == db.users
      && r.value.db.markers.Keys == db.markers.Keys - SetOf(ids)
      && forall k :: k in r.value.db.markers ==> r.value.db.markers[k] == db.markers[k]
  {
    if |ids| == 1 then
      if backend.Fault? then Failure(Backend(backend.message))
      else Success(Change(db.(markers := db.markers - {ids[0]}), ids))
    else if |ids| > 1 then
      if backend.Fault? then Failure(Backend(backend.message))
      else Success(Change(db.(markers := CommitBatch(db.markers, ids)), ids))
    else Failure(EmptyIdList)
  }

  /** The single-id branch and the batch branch agree on one id. */
  lemma SingleDeleteIsBatch(markers: map<string, GeoMarker>, id: string)
    ensures CommitBatch(markers, [id]) == markers - {id}
  {
    assert SetOf([id]) == {id};
  }

  /** Deleting markers leaves every saved list as it was: ids saved by other
      users may now name markers that no longer exist. */
  lemma DeleteKeepsSavedReferences(db: Db, ids: seq<string>, backend: Backend, userIndex: nat, k: nat)
    requires DeleteGeoMarker(db, ids, backend).Success?
    requires userIndex < |db.users|
    requires db.users[userIndex].user.geoMarkers.Some? && k < |db.users[userIndex].user.geoMarkers.value|
    requires db.users[userIndex].user.geoMarkers.value[k] in ids
    ensures DeleteGeoMarker(db, ids, backend).value.db.users[userIndex].user.geoMarkers.value[k]
              !in DeleteGeoMarker(db, ids, backend).value.db.markers
  {
  }

  /** Every call keeps document ids unique. */
  lemma CallsKeepWellFormed(db: Db, uid: string, userDocId: string, markerId: string, ids: seq<string>, backend: Backend)
    requires WellFormed(db)
    ensures backend.Fault? || |UsersWithUid(db.users, uid)| > 0 ==>
      var r := AddGeoMarkerToUser(db, uid, markerId, backend); r.Success? ==> WellFormed(r.value)
    ensures var r := RemoveGeoMarkerFromSaved(db, userDocId, ids, backend); r.Success? ==> WellFormed(r.value.db)
    ensures var r := DeleteGeoMarker(db, ids, backend); r.Success? ==> WellFormed(r.value.db)
  {
  }
}

=== FILE: text.dfy ===
/** Character classes and string helpers with the JVM / Kotlin semantics the
    application relies on: `trim()`, `isBlank()`, regex line terminators,
    ASCII case mapping and `equals(…, ignoreCase = true)`. */
module Text {

  /** Kotlin's `Char.isWhitespace()` on the JVM: `Character.isWhitespace(c)`
      or `Character.isSpaceChar(c)`. That is the ASCII controls TAB..CR and
      FS..US, and every Unicode space, line and paragraph separator. */
  predicate IsWhitespace(c: char) {
    || ('\t' <= c <= '\r')
    || ('\U{1C}' <= c <= ' ')
    || c == '\U{A0}'
    || c == '\U{1680}'
    || ('\U{2000}' <= c <= '\U{200A}')
    || c == '\U{2028}' || c == '\U{2029}'
    || c == '\U{202F}' || c == '\U{205F}'
    || c == '\U{3000}'
  }

  /** Kotlin's `CharSequence.isBlank()`: empty or whitespace only. */
  predicate IsBlank(s: string) {
    forall i :: 0 <= i < |s| ==> IsWhitespace(s[i])
  }

  /** Index of the first non-whitespace character, or `|s|` if there is none. */
  function TrimStart(s: string): (k: nat)
    ensures k <= |s|
    ensures forall i :: 0 <= i < k ==> IsWhitespace(s[i])
    ensures k < |s| ==> !IsWhitespace(s[k])
  {
    if |s| == 0 || !IsWhitespace(s[0]) then 0 else 1 + TrimStart(s[1..])
  }

  /** Index just past the last non-whitespace character, or 0 if there is none. */
  function TrimEnd(s: string): (k: nat)
    ensures k <= |s|
    ensures forall i :: k <= i < |s| ==> IsWhitespace(s[i])
    ensures 0 < k ==> !IsWhitespace(s[k - 1])
  {
    if |s| == 0 || !IsWhitespace(s[|s| - 1]) then |s| else TrimEnd(s[..|s| - 1])
  }

  /** Kotlin's `String.trim()`: drops leading and trailing whitespace. */
  function Trim(s: string): (r: string)
    ensures |r| <= |s|
    ensures r == [] <==> IsBlank(s)
    ensures r != [] ==> !IsWhitespace(r[0]) && !IsWhitespace(r[|r| - 1])
    ensures TrimStart(s) + |r| <= |s|
    ensures r == s[TrimStart(s)..TrimStart(s) + |r|]
  {
    var i := TrimStart(s);
    if i == |s| then [] else s[i..TrimEnd(s)]
  }

  /** A string that neither starts nor ends with whitespace is its own trim. */
  lemma TrimUntouched(s: string)
    requires s != [] && !IsWhitespace(s[0]) && !IsWhitespace(s[|s| - 1])
    ensures Trim(s) == s
  {
    assert TrimStart(s) == 0;
    assert TrimEnd(s) == |s|;
  }

  /** Trimming a trimmed string changes nothing. */
  lemma TrimIdempotent(s: string)
    ensures Trim(Trim(s)) == Trim(s)
  {
    var t := Trim(s);
    if t != [] {
      TrimUntouched(t);
    }
  }

  /** A string and its trimmed form are blank together. */
  lemma BlankIffTrimmedBlank(s: string)
    ensures IsBlank(s) <==> IsBlank(Trim(s))
  {
    var t := Trim(s);
    if t != [] {
      assert !IsWhitespace(t[0]);
    }
  }

  /** The UTF-16 code units that encode `c`: a surrogate pair for a
      character outside the Basic Multilingual Plane, one unit otherwise. */
  function Utf16Units(c: char): nat {
    if c as int > 0xFFFF then 2 else 1
  }

  /** Kotlin's `String.length`, which counts UTF-16 code units. No whitespace
      character is a surrogate, so `trim()` on code units and `Trim` on
      characters remove the same text. */
  function Utf16Length(s: string): (n: nat)
    ensures |s| <= n <= 2 * |s|
    ensures s != [] ==> n > 0
  {
    if s == [] then 0 else Utf16Units(s[0]) + Utf16Length(s[1..])
  }

  /** Text inside the Basic Multilingual Plane has one unit per character. */
  lemma {:induction false} Utf16LengthBmp(s: string)
    requires forall i :: 0 <= i < |s| ==> s[i] as int <= 0xFFFF
    ensures Utf16Length(s) == |s|
  {
    if s != [] {
      Utf16LengthBmp(s[1..]);
    }
  }

  /** Text made only of characters outside the Basic Multilingual Plane has
      two units per character. */
  lemma {:induction false} Utf16LengthSupplementary(s: string)
    requires forall i :: 0 <= i < |s| ==> s[i] as int > 0xFFFF
    ensures Utf16Length(s) == 2 * |s|
  {
    if s != [] {
      Utf16LengthSupplementary(s[1..]);
    }
  }

  /** Line terminators as `java.util.regex` sees them without `UNIX_LINES`:
      the character `.` never matches one of these. */
  predicate IsLineTerminator(c: char) {
    c == '\n' || c == '\r' || c == '\U{85}' || c == '\U{2028}' || c == '\U{2029}'
  }

  predicate IsAsciiDigit(c: char) { '0' <= c <= '9' }

  predicate IsAsciiUpper(c: char) { 'A' <= c <= 'Z' }

  predicate IsAsciiLower(c: char) { 'a' <= c <= 'z' }

  /** `Character.toUpperCase` on the characters this model needs: the ASCII
      letters, plus the two non-ASCII letters whose upper case is ASCII
      (dotless i and long s). Every other character maps to itself. */
  function UpperChar(c: char): (u: char)
    ensures IsAsciiLower(c) ==> IsAsciiUpper(u)
    ensures !IsAsciiLower(c) && c != '\U{131}' && c != '\U{17F}' ==> u == c
  {
    if IsAsciiLower(c) then (c as int - 32) as char
    else if c == '\U{131}' then 'I'
    else if c == '\U{17F}' then 'S'
    else c
  }

  /** `Character.toLowerCase` on the characters this model needs: the ASCII
      letters, plus the two non-ASCII letters whose lower case is ASCII
      (capital I with dot above and the Kelvin sign). */
  function LowerChar(c: char): (l: char)
    ensures IsAsciiUpper(c) ==> IsAsciiLower(l)
    ensures !IsAsciiUpper(c) && c != '\U{130}' && c != '\U{212A}' ==> l == c
  {
    if IsAsciiUpper(c) then (c as int + 32) as char
    else if c == '\U{130}' then 'i'
    else if c == '\U{212A}' then 'k'
    else c
  }

  /** `String.toUpperCase(Locale.ROOT)` restricted to ASCII text: each ASCII
      lower-case letter becomes its capital, everything else is kept. */
  function UpperAscii(s: string): (r: string)
    ensures |r| == |s|
    ensures forall i :: 0 <= i < |s| ==> (IsAsciiLower(s[i]) ==> IsAsciiUpper(r[i]) && r[i] as int == s[i] as int - 32)
    ensures forall i :: 0 <= i < |s| ==> (!IsAsciiLower(s[i]) ==> r[i] == s[i])
  {
    seq(|s|, i requires 0 <= i < |s| => if IsAsciiLower(s[i]) then (s[i] as int - 32) as char else s[i])
  }

  /** Kotlin's `Char.equals(other, ignoreCase = true)`. */
  predicate CharEqualsIgnoreCase(a: char, b: char) {
    || a == b
    || UpperChar(a) == UpperChar(b)
    || LowerChar(UpperChar(a)) == LowerChar(UpperChar(b))
  }

  /** Kotlin's `String?.equals(other: String?, ignoreCase = true)` with a
      non-null right-hand side: a null receiver is never equal. */
  predicate EqualsIgnoreCase(a: string, b: string) {
    && |a| == |b|
    && forall i :: 0 <= i < |a| ==> CharEqualsIgnoreCase(a[i], b[i])
  }
}

=== FILE: wrappers.dfy ===
/** Failure-compatible wrappers used throughout the model: `Option` stands for
    Kotlin's nullable values, `Result` for the success/failure callback pairs of
    the backend calls. */
module Wrappers {

  /** A nullable value: `None` is Kotlin's `null`. */
  datatype Option<+T> = None | Some(value: T) {

    /** Kotlin's elvis operator `x ?: default`. */
    function GetOr(default: T): T {
      match this
      case Some(v) => v
      case None => default
    }
  }

  /** The outcome of a backend call: the argument of `onSuccess` or of `onFailure`. */
  datatype Result<+R, +E> = Success(value: R) | Failure(error: E)
}
